=== FILE: README.md ===
# Invitation service: authentication and invitation generation, in Dafny

This project models the server core of the invitation service. Hosts register, wait for activation, log in and receive a bearer token. With that token they upload a spreadsheet of guests. The service stores the guests, renders one invitation image per guest (a QR code with the guest's payload and a name label in a fixed box) and lets hosts list and download spreadsheets and images.

Modules, following the program's structure:

- `Outcomes`: Python's `Optional`, the exceptions that cross the core, `str(e)` and `str(type(e))`, and `Outcome<T>`. An `Outcome` is a call that returns a value or raises.
- `Strings`: the Python string operations the core relies on, over `seq<char>`: `[:n]`, `startswith`, `split`, `"".join`, `rstrip`, `replace`, `str(int)`.
- `Paths`: relative paths as `pathlib` reads them. A path is kept as the text the code joins. The file it names is its list of components, without empty and "." components. `Path(p).name` is the last component, and `str(Path(p))` joins the components again.
- `Records`: the `Host` and `Guest` rows, and the host table as a sequence. `.filter(...).first()` is modelled as the first matching position, and `.filter(email != e).all()` as `Excluding`.
- `Tokens`: `create_access_token` and `decode_access_token`.
- `Accounts`: `AuthService.login`, `register`, `get_all_hosts` and `activate_host`.
- `Repository`: the `get_current_host` dependency.
- `Invitations`: `AuthService.generate_images` and `add_name_to_invitation`. This covers the row-to-guest step, the payloads and paths, the QR data, the font-size search and the drawing origin.
- `Router`: the endpoints. Each protected endpoint receives the dependency's outcome as `auth`, and a failed authentication is that endpoint's response.

Things outside Dafny's reach are parameters:

- the JWT library (`encode`, and `jwtDecode`, which returns claims, an expired signature or an invalid token);
- bcrypt (`verify`, and the `hashed` password);
- the clock (`now`, in minutes);
- the configured token lifetime (`expireMinutes` in `login`, `defaultMinutes` in `create_access_token`);
- ids the store assigns (`newId`, `ids`);
- what a commit raises (`commitError`);
- whether the upload was written (`uploadSaved`);
- what the spreadsheet parser returned or raised (`sheet`);
- the font's text measurement (`measure`);
- the template's height (`height`);
- the file system (`fs`), a lookup from a path's components to what is stored there.

Two behaviours of the code as written are modelled as they are:

- The one QR builder is never cleared between rows. The QR code of row *i* therefore encodes the payloads of rows 0..*i* run together (`QrContent`, `LaterQrCodesCarryEarlierRows`).
- `register` computes a URL and never uses it (`RegisterIgnoresUrl`).

## Model

| member | source | states |
|---|---|---|
| Tokens.AccessClaims | app/src/auth/service.py:28-45 | `CreateAccessToken` signs these claims with the library's `encode`. The subject claim is the subject. Expiry is `now` plus the given duration, or plus the configured default when no duration or a zero (falsy) duration is given. |
| Tokens.StripBearer | app/src/auth/service.py:86-87 | A token starting with "Bearer " is that prefix followed by the result. Any other token is returned unchanged. The result is never longer. |
| Tokens.StripBearerOnce | app/src/auth/service.py:86-87 | Exactly one prefix is removed: stripping "Bearer " + t gives t back. |
| Tokens.LibraryException | app/src/auth/service.py:93-96 | Both failures of the JWT library are JWT errors. This includes an expired signature. |
| Tokens.DecodeAccessToken | app/src/auth/service.py:82-96 | Decoding succeeds exactly when the library decodes the stripped token, and then yields its claims. An expired signature raises ValueError("Token has expired"). Any other JWT failure raises ValueError("Invalid token"). Every raise is a ValueError, never a JWT error. |
| Records.FirstMatch | app/src/auth/service.py:103 | `.first()` finds a matching row with no earlier match. It finds nothing exactly when no row matches. |
| Records.Excluding | app/src/auth/service.py:174-188 | A host is listed exactly when it is in the table with a different email. The list is no longer than the table, and it is the whole table when nobody has that email. |
| Records.FirstMatchUniqueId | app/src/auth/repository.py:40 | With unique ids, looking up a host's id finds that host's row. |
| Accounts.Login | app/src/auth/service.py:102-127 | Login succeeds exactly when the email is registered, the password checks against the first such host's hash, and that host is active. An unknown email or a wrong password gives 401 "Incorrect email or password". This check comes before the activity check. A matching but inactive host gives 401 "Inactive user". On success only that host's last-login time changes. The token type is "bearer", and the token encodes expiry now+default and the host's id. Every error is a 401. |
| Accounts.Register | app/src/auth/service.py:129-172 | An already registered email gives 400 "Email already registered" (both directions). A failing commit gives 500 "Registration failed: <type> <message>". Success happens exactly when neither occurs. The new host is appended with the given id, email, hash and names, and no last login. It is active exactly when its email is one of the four listed addresses. |
| Accounts.RegisterKeepsEmailsUnique | app/src/auth/service.py:132-137 | Registration never creates a second host with the same email. |
| Accounts.RegisterKeepsIdsUnique | app/src/auth/service.py:151-161 | Appending a host with a fresh id keeps ids unique. |
| Accounts.RegisterIgnoresUrl | app/src/auth/service.py:129-172 | The `full_url` argument has no influence on the outcome. |
| Accounts.GetAllHosts | app/src/auth/service.py:174-188 | A host is listed exactly when it is in the table and its email differs from the caller's. |
| Accounts.ActivateHost | app/src/auth/service.py:190-208 | An unknown email gives 404 "Host with email … not found" (both directions). A failing commit gives 500 "Deleting failed: …". On success only the first host with that email changes, and it becomes active. The message says "… deleted successfully". |
| Accounts.ActivateHostIdempotent | app/src/auth/service.py:190-200 | Activating an already activated host succeeds and changes nothing. |
| Repository.CheckClaims | app/src/auth/repository.py:31-54 | Every failure after decoding is an HTTPException. |
| Repository.Translate | app/src/auth/repository.py:56-71 | HTTPExceptions pass through unchanged. Everything else becomes a 401. |
| Repository.GetCurrentHost | app/src/auth/repository.py:23-71 | A host is returned exactly when the token decodes, names a host id, that host exists and the first such host is active. The returned host is in the table, is active and has the token's subject as id. Every failure is an HTTPException with status 401, except 400 "Host is inactive". The "Token is invalid or expired" branch can never be taken. A 400 only happens for a decodable token that names an existing host. |
| Repository.UndecodableTokenRejected | app/src/auth/repository.py:66-71 | A token the library cannot decode gives 401 "Could not validate credentials". |
| Repository.MissingSubjectRejected | app/src/auth/repository.py:33-37 | A decoded token without a subject gives 401 "Token missing host ID". |
| Repository.UnknownHostRejected | app/src/auth/repository.py:40-46 | A subject that no host has gives 401 "Host not found". |
| Repository.InactiveHostRejected | app/src/auth/repository.py:48-52 | A subject naming an inactive host gives 400 "Host is inactive". |
| Invitations.PrintedLabel | app/src/auth/service.py:290 | `NameArgument` models the name argument "code-name[:20]". The label is cut twice, once on the name and once on the whole text. The result equals cutting "code-name" once. It has at most 20 characters, is a prefix of "code-name", and is all of it when that is short enough. |
| Invitations.PayloadEndsWithId | app/src/auth/service.py:266 | `Payload` models the QR data "code-name_id" of a row. With an underscore-free id, the id is the last `_`-piece of the payload, whatever the name holds. |
| Invitations.OutputPathsDistinct | app/src/auth/service.py:266-291 | Guests with distinct ids, where ids hold neither `_` nor `/` and names hold no `/`, get images in distinct files. |
| Invitations.OutputPathInjective | app/src/auth/service.py:291 | Two payloads without `/` (and neither "" nor ".") whose image paths name the same file are equal. |
| Invitations.OutputPathComponents | app/src/auth/service.py:291 | `OutputPath` models `f"{image_folder/data}.png"`: the rendered path of the run folder and the payload, then ".png". For a payload without `/`, it names the run's folder followed by the payload plus ".png". |
| Invitations.DoubledSlashSharesFile | app/src/auth/service.py:291 | Payloads that differ only in a doubled `/` get the same image path, since pathlib drops the empty component. Payloads holding `/` therefore need not get distinct files. |
| Invitations.FloorHalf | app/src/auth/service.py:350-351 | Python's `// 2` lies within one of half the operand, rounding down for either sign. |
| Invitations.FontSizeChosenUnique | app/src/auth/service.py:326-339 | The chosen font size is determined by the text and the measurement. |
| Invitations.ChooseFontSize | app/src/auth/service.py:326-339 | The size is between 19 and 30. No larger candidate fits. If any candidate fits, the chosen one fits. If none fits, it is the size-30 fallback. The loop agrees with the functional search `FontSizeFor`. |
| Invitations.FirstFitChosen | app/src/auth/service.py:329-339 | Searching down from a size, when no larger size fits, gives the size the compositor must use. |
| Invitations.FontSizeForChosen | app/src/auth/service.py:326-339 | The search (try 30 down to 19, stop at the first fit, otherwise keep 30) meets the specification of the size choice. |
| Invitations.TextOrigin | app/src/auth/service.py:345-351 | For a text whose bounding box measures w×h, the origin is (40 + (240−w)//2, 1075 + (105−h)//2). A w×h rectangle anchored at that origin is centred in the 240×105 box at (40, 1075): the left and right margins, and the top and bottom margins, differ by 0 or 1, with the spare pixel going right or below. |
| Invitations.QrOrigin | app/src/auth/service.py:278-280 | The 240×191 QR image is pasted at x = 40, with its bottom edge 63 pixels above the template's bottom. It spans exactly the columns of the name box. |
| Invitations.AddNameToInvitation | app/src/auth/service.py:309-359 | The drawn text is the first 20 characters of the name. Its font size meets the size specification, its origin is `TextOrigin` of the measured extent, which centres a rectangle of that extent anchored there, and its colour is (7, 7, 7). |
| Invitations.QrContentGrows | app/src/auth/service.py:265-268 | The QR builder's data only grows from row to row. Earlier data is a prefix of later data. |
| Invitations.LaterQrCodesCarryEarlierRows | app/src/auth/service.py:265-268 | Suppose the first row's payload is non-empty, as every payload is. Then from the second row on, a QR code begins with the first row's payload and differs from the row's own payload. |
| Invitations.ComposeInvitation | app/src/auth/service.py:265-294 | The paths come from `TempPath` (`temp_path / f"{data}.png"`, line 271) and `OutputPath`. For one guest, the invitation has: the payload "code-name_id"; the QR data, which is the builder's previous data plus this payload; the temporary path and the image path under the run folder; the QR size and position; and the label drawing. |
| Invitations.WithColumn | app/src/auth/service.py:245 | Assigning a column keeps every column. An existing column keeps its place and nothing changes. A new column is appended at the end, and nothing else is added. |
| Invitations.StoreGuests | app/src/auth/service.py:241-260 | The parse error, KeyError('name'), KeyError('code') and commit error are each passed on exactly when they occur. Otherwise the columns are the original ones plus "event_name" and "id", and there is one guest per row with the store's id, the row's name and code, and the invitation name. |
| Invitations.ReadGuests | app/src/auth/service.py:247-254 | A sheet with rows but no "name" column raises KeyError('name'). With "name" but no "code" column it raises KeyError('code'). Otherwise there is one id-less guest per row, in order, tagged with the invitation name. |
| Invitations.AssignIds | app/src/auth/service.py:256-260 | The flush gives the guests the store's ids in order and changes nothing else. |
| Invitations.ComposeAll | app/src/auth/service.py:265-294 | There is one invitation per guest, in order, and each describes its guest. The QR code of invitation i encodes the payloads of invitations 0..i, run together. |
| Invitations.GenerateImages | app/src/auth/service.py:210-306 | A failed save gives 400 "Failed to save file". A parse error, a missing column (only when there are rows) or a failed commit gives 400 "Excel processing failed: <str(e)>", and then no guest is committed. Success happens exactly when none of these occur. Then the committed guests are the rows with the store's ids and the invitation name, and every invitation describes its guest. |
| Router.DownloadNameDropsUnderscores | app/src/auth/router.py:166 | `DownloadName` models the offered image name: the `_`-pieces before the last, run together, then ".png". So the name drops the last `_` and everything after it. Earlier underscores are removed too, not kept. |
| Router.DownloadNameWithoutUnderscore | app/src/auth/router.py:166 | A name without `_` is offered as just ".png". |
| Router.DownloadNameExample | app/src/auth/router.py:166 | "a_b_c.png" is offered as "ab.png". |
| Router.FullUrl | app/src/auth/router.py:40 | The derived URL is never longer than the request URL. |
| Router.RStripTrailing | app/src/auth/router.py:40 | `rstrip("/")` removes exactly the trailing slashes. |
| Router.FullUrlOfRegister | app/src/auth/router.py:40 | A URL ending in "/register", with any trailing slashes, loses that suffix when "/register" occurs nowhere earlier. |
| Router.FullUrlLeadingOccurrence | app/src/auth/router.py:40 | An occurrence of "/register" that is not at the end is removed too. |
| Router.FullUrlWithoutRegister | app/src/auth/router.py:40 | A URL in which "/register" does not occur is only stripped of its trailing slashes. |
| Router.NamesOfKind | app/src/auth/router.py:123 | A name is listed exactly when some entry of that kind has it. |
| Router.ListDirectory | app/src/auth/router.py:118-125 | A missing path or a non-directory gives 404 "Folder not found" (both directions). Otherwise the names of entries of the requested kind are listed. |
| Router.ExcelFiles | app/src/auth/router.py:114-125 | An authentication failure is the response. Otherwise the files of the folder src/excel are listed. |
| Router.ImagesFolders | app/src/auth/router.py:128-139 | An authentication failure is the response. Otherwise the sub-folders of "src/images" are listed. |
| Router.ImagesFiles | app/src/auth/router.py:142-154 | An authentication failure is the response. Otherwise the files of the run's image folder are listed. |
| Router.FilesAndFoldersDisjoint | app/src/auth/router.py:123-137 | With distinct entry names, no name is listed both as a file and as a folder. |
| Router.GetImage | app/src/auth/router.py:157-168 | `ImagePath` models `Path("src") / f"images/{id}/{img_name}"`. An authentication failure is the response. Otherwise the file at "src/images/id/name" is served as PNG. The offered name is cut from the path's name. That name is the image name's last component. When the image name has no components ("", ".", "/"), it is the run folder's name. |
| Router.GetExcel | app/src/auth/router.py:171-181 | An authentication failure is the response. Otherwise the file at "src/excel/name" is served. The offered name is the path's name: the sheet name when it is a plain name, and "excel" when it is "" or ".". |
| Router.ExcelFolderName | app/src/auth/router.py:176 | The name of `Path("src") / "excel"` is "excel". |
| Router.GeneratedImageServed | app/src/auth/router.py:157-168 | An image the pipeline wrote is served from the same file it was written to, as "code-name.png", when neither the name nor the id holds `_` or `/`. |
| Router.SavedSheetServed | app/src/auth/router.py:171-181 | `SheetPath` models `saved_path` (service.py:228), and `ExcelPath` the path of `get_excel`. The sheet a run saved is served from where it was saved, under its own name. |
| Router.Login | app/src/auth/router.py:25-30 | Every error is a 401. A token, of type "bearer", is issued exactly when the username and password match an active registered host. |
| Router.Register | app/src/auth/router.py:33-41 | The outcome is that of registration with any URL. The derived URL plays no part. |
| Router.ValidateToken | app/src/auth/router.py:44-64 | An authentication failure is the response. Otherwise the response is "Token is valid". |
| Router.GetHosts | app/src/auth/router.py:67-79 | An authentication failure is the response. Otherwise every host except the caller is listed. |
| Router.ActivateHost | app/src/auth/router.py:82-95 | An authentication failure is the response. Otherwise the outcome is that of activation. |
| Router.ProcessInvitationFile | app/src/auth/router.py:98-111 | An authentication failure is the response, and nothing is committed. Once authenticated, the upload succeeds exactly when the file is saved, parsed, readable and committed. Otherwise the pipeline's 400 is the response, and nothing is committed. A success serves the saved sheet from "src/excel/name_fileId.xlsx" as a spreadsheet, under that file name, with one committed guest per row. |
| Router.LoginKeepsIds | app/src/auth/service.py:116 | Login changes no host's id. |
| Router.TokenForHostAuthenticates | app/src/auth/repository.py:28-54 | A token that decodes to claims naming an active host with a unique id authenticates that host. |
| Router.LoginTokenAuthenticates | app/src/auth/service.py:119-127 | Suppose the library decodes what it encodes and ids are unique and non-empty. Then the token a login issues authenticates the host that logged in, whether sent with or without "Bearer ". |
| Strings.Split | app/src/auth/router.py:166 | `split` gives at least one piece, and no piece contains the separator. |
| Strings.JoinSplit | app/src/auth/router.py:166 | Joining the pieces with the separator gives the text back. |
| Paths.ComponentsJoin | app/src/auth/router.py:163 | `Path(dir) / rest` has the components of `dir` followed by those of `rest`. |
| Paths.NameAfterDir | app/src/auth/router.py:176-179 | The name of `Path(dir) / leaf` is the leaf's name. When the leaf has no components ("", ".", "/"), it is the directory's name. |
| Paths.NameOfPlainLeaf | app/src/auth/router.py:176-179 | For a leaf without `/`, that name is the leaf itself, unless the leaf is "" or ".". |
| Paths.RenderSameFile | app/src/auth/service.py:291 | The text `str(Path(p))` names the same file as `p`. |
| Paths.RenderedChild | app/src/auth/service.py:291 | `f"{Path(dir) / leaf}.png"` for a leaf without `/` names the directory followed by the leaf with the suffix. |
| Paths.DoubledSlash | app/src/auth/service.py:291 | A doubled `/` inside a leaf renders the same path as a single one. |
| Strings.RStrip | app/src/auth/router.py:40 | `rstrip` gives a prefix that does not end in the character, and everything cut off is that character. |
| Strings.ReplaceAll | app/src/auth/router.py:40 | Replacing with "" never lengthens the text. |
| Strings.DecimalRoundTrip | app/src/auth/service.py:266 | `str(code)` parses back to `code`, so distinct codes give distinct texts. |

## Left out

- bcrypt hashing and checking, and JWT signing and verification, are library calls. They are function parameters here.
- Wall-clock times are abstract minutes. Time zones and `timedelta` arithmetic are not modelled.
- pandas (reading and writing the workbook), PIL (opening, pasting and saving images, measuring text) and QR encoding are not modelled. The model keeps what the code decides from their results: the data handed to the QR builder, the paste position, the label text, font size and position. The QR builder's growing version (`fit=True`) is not modelled.
- The `code` column is an integer. The pandas floats and NaNs a real workbook can produce are not modelled, and neither is the `name` column holding a non-string.
- Failures of `to_excel`, of the template and font loading, and of the image saves inside `generate_images` are not modelled. They would also raise "Excel processing failed", but only after the commit. Only a failing commit is modelled among the store's failures.
- Invitations.TextOrigin: PIL draws with its default "la" anchor, so the ink lands offset by `textbbox`'s left and top. For a bold font the top offset is several pixels, so the printed label sits lower than the centred rectangle. `measure` returns only the width and height of the bounding box, so the model does not carry that offset, and the origin centres the measured rectangle, not the ink.
- Invitations.ChooseFontSize: the per-size `except Exception: continue` around font loading is not modelled. Font loading is assumed to succeed.
- The commit in `login` is assumed to succeed.
- Configuration and ORM classes are assumed to exist. The core reads `ACCESS_TOKEN_EXPIRE_MINUTES`, `SECRET_KEY` and `ALGORITHM` from the settings (service.py:36, :43, :90 and :119), but app/src/core/config.py:12-14 defines only `PROJECT_NAME`, `VERSION` and `DEBUG`, and its settings class accepts no others from `.env`. As written in this tree, `login` would raise `AttributeError` after committing `last_login`, which gives a 500. `decode_access_token` would raise it too, so `get_current_host` would answer 401 "Could not validate credentials" for every token. The model assumes the three settings are configured: the lifetime is the `expireMinutes` and `defaultMinutes` parameters, and the key and algorithm live inside `encode` and `jwtDecode`. `Accounts.Login`, `Router.LoginTokenAuthenticates` and `Repository.GetCurrentHost` hold under that assumption. Likewise `Records.Host` and `Records.Guest` stand for the `Host` and `Guest` classes that service.py:15 imports, which app/src/auth/model.py does not define (it defines only `User`).
- Database sessions, the rollbacks themselves, `refresh` and `load_only` (column pruning of the host listing) are not modelled. The host table is a sequence, and `.first()` takes the first row in that order.
- HTTPBearer's header parsing is not modelled, nor its 403 for a missing header. The model starts from the token string.
- A `sub` claim that is not a string is not modelled. Claims carry an optional string subject.
- pydantic validation of request and response bodies, logging, and async scheduling are not modelled.
- Directory creation, the random `uuid4` file id (a parameter), and the removal of the temporary QR file are not modelled.
- Paths are relative texts. `pathlib`'s handling of absolute paths and of ".." is not modelled, since every path of the core starts with "src". Paths in responses are kept as the text the code joins. That text and `str(Path(...))` name the same file (`Paths.RenderSameFile`).
- Invitations.GenerateImages: two post-commit failures are not modelled, and neither are the others listed above. (1) Every row's payload is added to the one QR builder, and `make(fit=True)` raises once the accumulated data outgrows the largest QR version (version 40 at level M holds 2331 bytes, and each payload ends in a store id). (2) A name or id holding `/` makes the QR image save into a sub-folder of src/temp that is never created. The source answers both with 400 "Excel processing failed: …" after the guests are committed. The contract instead promises success for any number of rows and any names. Modelling the overflow would need the QR encoder's capacity tables.
- Router.ActivateHost: `host_email` is declared as `Query(str, …)`. Its default, when the parameter is absent, is the `str` class itself. The outcome of querying with that object depends on SQLAlchemy and the database driver, so the model takes the email as a string and covers only requests that supply it.
- Router.FullUrl: the contract bounds the length. Its exact value is stated for URLs ending in "/register" and for a leading occurrence (FullUrlOfRegister, FullUrlLeadingOccurrence), not for every URL.
- Strings.ReplaceAll: only the length bound is stated in its contract. Occurrence-free prefixes and a leading occurrence are covered by separate lemmas.

=== FILE: accounts.dfy ===
/** The account decisions of `AuthService`: login, registration, activation
    and the host listing.  The host table is passed in and, where the service
    commits a change, the changed table is returned with the result. */
module Accounts {

  import opened Outcomes
  import opened Records
  import Tokens

  /** The body of a login response. */
  datatype Token = Token(accessToken: string, tokenType: string)

  /** The registration form. */
  datatype HostCreate = HostCreate(email: string, password: string, firstName: Option<string>, lastName: Option<string>)

  /** The addresses that are active as soon as they register. */
  const AutoActivated: set<string> := {
    "ahmedt_ash@yahoo.com",
    "ahmedtash5@gmail.com",
    "ahmed.ashkar@biotech-eg.com",
    "ramy.elatwy@biotech-eg.com"
  }

  /** The email is registered and the password checks against the stored hash
      of the first host found with it. */
  predicate CredentialsMatch(hosts: seq<Host>, email: string, password: string, verify: (string, string) -> bool) {
    var k := FirstMatch(hosts, ByEmail(email));
    k.Some? && verify(password, hosts[k.value].hashedPassword)
  }

  /** `AuthService.login`.  A wrong email or password is reported before an
      inactive account; on success only the host's last-login time changes and
      the token carries its id. */
  function Login(
    hosts: seq<Host>, email: string, password: string,
    verify: (string, string) -> bool, now: int, expireMinutes: int,
    encode: Tokens.Claims -> string): (r: Outcome<(seq<Host>, Token)>)
    ensures !CredentialsMatch(hosts, email, password, verify) ==>
              r.IsHttpError(HTTP_401_UNAUTHORIZED, "Incorrect email or password")
    ensures CredentialsMatch(hosts, email, password, verify) && !hosts[FirstMatch(hosts, ByEmail(email)).value].isActive ==>
              r.IsHttpError(HTTP_401_UNAUTHORIZED, "Inactive user")
    ensures r.Returns? <==>
              CredentialsMatch(hosts, email, password, verify) && hosts[FirstMatch(hosts, ByEmail(email)).value].isActive
    ensures r.Returns? ==>
              var k := FirstMatch(hosts, ByEmail(email)).value;
              && CredentialsMatch(hosts, email, password, verify)
              && hosts[k].isActive
              && |r.value.0| == |hosts|
              && r.value.0[k] == hosts[k].(lastLogin := Some(now))
              && (forall j :: 0 <= j < |hosts| && j != k ==> r.value.0[j] == hosts[j])
              && r.value.1.tokenType == "bearer"
              && r.value.1.accessToken == encode(Tokens.Claims(now + expireMinutes, Some(hosts[k].id)))
    ensures r.Raises? ==> r.exc.HTTPException? && r.exc.status == HTTP_401_UNAUTHORIZED
  {
    match FirstMatch(hosts, ByEmail(email))
    case None => Fail(HTTP_401_UNAUTHORIZED, "Incorrect email or password")
    case Some(k) =>
      var user := hosts[k];
      if !verify(password, user.hashedPassword) then
        Fail(HTTP_401_UNAUTHORIZED, "Incorrect email or password")
      else if !user.isActive then
        Fail(HTTP_401_UNAUTHORIZED, "Inactive user")
      else
        var accessToken := Tokens.CreateAccessToken(user.id, Some(expireMinutes), now, expireMinutes, encode);
        Returns((hosts[k := user.(lastLogin := Some(now))], Token(accessToken, Tokens.TokenType)))
  }

  /** `AuthService.register`.  `hashed` is the library's hash of the submitted
      password, `newId` the id the store assigns, and `commitError` the
      exception the commit raises, if any (the session is rolled back). */
  function Register(
    hosts: seq<Host>, data: HostCreate, hashed: string, newId: string,
    commitError: Option<Exception>, fullUrl: string): (r: Outcome<(seq<Host>, Host)>)
    ensures Has(hosts, ByEmail(data.email)) <==> r.IsHttpError(HTTP_400_BAD_REQUEST, "Email already registered")
    ensures !Has(hosts, ByEmail(data.email)) && commitError.Some? ==>
              r.IsHttpError(HTTP_500_INTERNAL_SERVER_ERROR,
                            "Registration failed: " + TypeRepr(commitError.value) + " " + Describe(commitError.value))
    ensures r.Returns? <==> !Has(hosts, ByEmail(data.email)) && commitError.None?
    ensures r.Returns? ==>
              var h := r.value.1;
              && r.value.0 == hosts + [h]
              && h.id == newId
              && h.email == data.email
              && h.hashedPassword == hashed
              && h.firstName == data.firstName
              && h.lastName == data.lastName
              && h.lastLogin.None?
              && (h.isActive <==> data.email in AutoActivated)
  {
    if FirstMatch(hosts, ByEmail(data.email)).Some? then
      Fail(HTTP_400_BAD_REQUEST, "Email already registered")
    else
      var isActive :=
        || data.email == "ahmedt_ash@yahoo.com"
        || data.email == "ahmedtash5@gmail.com"
        || data.email == "ahmed.ashkar@biotech-eg.com"
        || data.email == "ramy.elatwy@biotech-eg.com";
      var user := Host(newId, data.email, hashed, data.firstName, data.lastName, isActive, None);
      match commitError
      case Some(e) =>
        Fail(HTTP_500_INTERNAL_SERVER_ERROR, "Registration failed: " + TypeRepr(e) + " " + Describe(e))
      case None => Returns((hosts + [user], user))
  }

  /** Registration never creates a second account for an address. */
  lemma RegisterKeepsEmailsUnique(
    hosts: seq<Host>, data: HostCreate, hashed: string, newId: string,
    commitError: Option<Exception>, fullUrl: string)
    requires UniqueEmails(hosts)
    requires Register(hosts, data, hashed, newId, commitError, fullUrl).Returns?
    ensures UniqueEmails(Register(hosts, data, hashed, newId, commitError, fullUrl).value.0)
  {
    var hosts' := Register(hosts, data, hashed, newId, commitError, fullUrl).value.0;
    forall i, j | 0 <= i < j < |hosts'|
      ensures hosts'[i].email != hosts'[j].email
    {
      if j == |hosts| {
        assert !Matches(hosts[i], ByEmail(data.email));
      }
    }
  }

  /** Registration with a fresh id keeps the primary key unique. */
  lemma RegisterKeepsIdsUnique(
    hosts: seq<Host>, data: HostCreate, hashed: string, newId: string,
    commitError: Option<Exception>, fullUrl: string)
    requires UniqueIds(hosts)
    requires !Has(hosts, ById(newId))
    requires Register(hosts, data, hashed, newId, commitError, fullUrl).Returns?
    ensures UniqueIds(Register(hosts, data, hashed, newId, commitError, fullUrl).value.0)
  {
    var hosts' := Register(hosts, data, hashed, newId, commitError, fullUrl).value.0;
    forall i, j | 0 <= i < j < |hosts'|
      ensures hosts'[i].id != hosts'[j].id
    {
      if j == |hosts| {
        assert !Matches(hosts[i], ById(newId));
      }
    }
  }

  /** The URL a registration request arrived on plays no part in the outcome. */
  lemma RegisterIgnoresUrl(
    hosts: seq<Host>, data: HostCreate, hashed: string, newId: string,
    commitError: Option<Exception>, url1: string, url2: string)
    ensures Register(hosts, data, hashed, newId, commitError, url1)
         == Register(hosts, data, hashed, newId, commitError, url2)
  {
  }

  /** `AuthService.get_all_hosts`: every host except the caller's address. */
  function GetAllHosts(hosts: seq<Host>, email: string): (r: seq<Host>)
    ensures forall h :: h in r <==> h in hosts && h.email != email
  {
    Excluding(hosts, email)
  }

  /** `AuthService.activate_host`: marks the first host with the address
      active and leaves every other row as it was. */
  function ActivateHost(hosts: seq<Host>, email: string, commitError: Option<Exception>): (r: Outcome<(seq<Host>, string)>)
    ensures !Has(hosts, ByEmail(email)) <==>
              r.IsHttpError(HTTP_404_NOT_FOUND, "Host with email " + email + " not found")
    ensures Has(hosts, ByEmail(email)) && commitError.Some? ==>
              r.IsHttpError(HTTP_500_INTERNAL_SERVER_ERROR,
                            "Deleting failed: " + TypeRepr(commitError.value) + " " + Describe(commitError.value))
    ensures r.Returns? <==> Has(hosts, ByEmail(email)) && commitError.None?
    ensures r.Returns? ==>
              var k := FirstMatch(hosts, ByEmail(email)).value;
              && |r.value.0| == |hosts|
              && r.value.0[k] == hosts[k].(isActive := true)
              && (forall j :: 0 <= j < |hosts| && j != k ==> r.value.0[j] == hosts[j])
              && r.value.1 == "Host with email " + email + " deleted successfully"
  {
    match FirstMatch(hosts, ByEmail(email))
    case None => Fail(HTTP_404_NOT_FOUND, "Host with email " + email + " not found")
    case Some(k) =>
      match commitError
      case Some(e) =>
        Fail(HTTP_500_INTERNAL_SERVER_ERROR, "Deleting failed: " + TypeRepr(e) + " " + Describe(e))
      case None =>
        Returns((hosts[k := hosts[k].(isActive := true)], "Host with email " + email + " deleted successfully"))
  }

  /** Activating a host a second time changes nothing more. */
  lemma {:induction false} ActivateHostIdempotent(hosts: seq<Host>, email: string)
    requires ActivateHost(hosts, email, None).Returns?
    ensures var once := ActivateHost(hosts, email, None).value.0;
            ActivateHost(once, email, None).Returns? && ActivateHost(once, email, None).value.0 == once
  {
    var k := FirstMatch(hosts, ByEmail(email)).value;
    var once := ActivateHost(hosts, email, None).value.0;
    assert Matches(once[k], ByEmail(email));
    var k' := FirstMatch(once, ByEmail(email)).value;
    assert k' == k;
    assert once[k := once[k].(isActive := true)] == once;
  }
}

=== FILE: invitations.dfy ===
/** The invitation pipeline of `AuthService.generate_images` and
    `add_name_to_invitation`: spreadsheet rows become guests, each guest gets
    a QR payload, a file name and a printed label, and the label is fitted and
    placed in a fixed box on the invitation template.

    The spreadsheet parser, the QR encoder and the image library are not
    modelled: the parsed sheet, the ids the store assigns, the template's
    height and the text measurement (`measure`, the width and height of the
    bounding box of a text at a font size) are inputs, and an image is
    described by what is drawn where. */
module Invitations {

  import opened Outcomes
  import opened Strings
  import opened Records
  import opened Paths

  /** One spreadsheet row, read through its `name` and `code` columns. */
  datatype Row = Row(name: string, code: int)

  /** A parsed spreadsheet: its column names and its rows. */
  datatype Sheet = Sheet(columns: seq<string>, rows: seq<Row>)

  datatype Extent = Extent(width: int, height: int)
  datatype Point = Point(x: int, y: int)
  datatype Color = Color(r: int, g: int, b: int)

  /** The name box on the template, in pixels. */
  const BoxX: int := 40
  const BoxY: int := 1075
  const BoxWidth: int := 240
  const BoxHeight: int := 105
  /** A label fits when it leaves this much room in each direction. */
  const Padding: int := 20

  /** Candidate font sizes run from `MaxFontSize` down to `MinFontSize`. */
  const MaxFontSize: int := 30
  const MinFontSize: int := 19

  /** Labels are cut to this many characters. */
  const LabelLimit: nat := 20

  const FontColor: Color := Color(7, 7, 7)

  /** The QR image is resized to this footprint and pasted at `QrLeft`,
      `QrBottomMargin` pixels above the bottom of the template. */
  const QrSize: Extent := Extent(240, 191)
  const QrLeft: int := 40
  const QrBottomMargin: int := 63

  // ---------------------------------------------------------------------------
  // Names and paths

  /** The text added to the QR builder for a guest, also the stem of its file. */
  function Payload(code: int, name: string, id: string): string {
    DecimalString(code) + "-" + name + "_" + id
  }

  function SheetPath(invitationName: string, fileId: string): string {
    "src/excel/" + invitationName + "_" + fileId + ".xlsx"
  }

  function ImageFolder(fileId: string): string {
    "src/images/" + fileId
  }

  function TempPath(payload: string): string {
    "src/temp/" + payload + ".png"
  }

  /** The output image: the rendered text of `image_folder / payload` with
      ".png" written after it. */
  function OutputPath(fileId: string, payload: string): string {
    Render(ImageFolder(fileId) + "/" + payload) + ".png"
  }

  /** The name argument the pipeline hands to the compositor: the code, a
      dash and the first `LabelLimit` characters of the name. */
  function NameArgument(code: int, name: string): string {
    DecimalString(code) + "-" + Take(name, LabelLimit)
  }

  /** Cutting a text or any extension of it at `n` agrees once the text is
      at least `n` long. */
  lemma TakeExtension(a: string, b: string, n: nat)
    requires a <= b
    requires n <= |a| || a == b
    ensures Take(a, n) == Take(b, n)
  {
  }

  /** The printed label, cut twice (once on the name, once on the whole
      text), is the whole "code-name" text cut once: at most `LabelLimit`
      characters, a prefix of it, and all of it when it is short enough. */
  lemma PrintedLabel(code: int, name: string)
    ensures Take(NameArgument(code, name), LabelLimit) == Take(DecimalString(code) + "-" + name, LabelLimit)
    ensures |Take(NameArgument(code, name), LabelLimit)| <= LabelLimit
    ensures Take(NameArgument(code, name), LabelLimit) <= DecimalString(code) + "-" + name
    ensures |DecimalString(code) + "-" + name| <= LabelLimit ==>
              Take(NameArgument(code, name), LabelLimit) == DecimalString(code) + "-" + name
  {
    var prefix := DecimalString(code) + "-";
    var full := prefix + name;
    var arg := NameArgument(code, name);
    if |name| <= LabelLimit {
      assert arg == full;
    } else {
      assert arg == prefix + name[..LabelLimit];
      assert arg <= full;
      TakeExtension(arg, full, LabelLimit);
    }
  }

  /** With an underscore-free id, the id is the last `_`-separated piece of
      the payload, whatever the name holds. */
  lemma {:induction false} PayloadEndsWithId(code: int, name: string, id: string)
    requires '_' !in id
    ensures var parts := Split(Payload(code, name, id), '_');
            parts[|parts| - 1] == id
    ensures Split(Payload(code, name, id), '_') == Split(DecimalString(code) + "-" + name, '_') + [id]
  {
    var stem := DecimalString(code) + "-" + name;
    assert Payload(code, name, id) == stem + ['_'] + id;
    SplitAppend(stem, id, '_');
    SplitWithoutSeparator(id, '_');
  }

  /** A payload without '/' is the last component of its output image, with
      ".png" added. */
  lemma OutputPathComponents(fileId: string, p: string)
    requires '/' !in p && Significant(p)
    ensures Components(OutputPath(fileId, p)) == Components(ImageFolder(fileId)) + [p + ".png"]
  {
    RenderedChild(ImageFolder(fileId), p, ".png");
  }

  /** Different payloads without '/' are written to different files of a run. */
  lemma OutputPathInjective(fileId: string, p1: string, p2: string)
    requires '/' !in p1 && Significant(p1)
    requires '/' !in p2 && Significant(p2)
    requires SameFile(OutputPath(fileId, p1), OutputPath(fileId, p2))
    ensures p1 == p2
  {
    OutputPathComponents(fileId, p1);
    OutputPathComponents(fileId, p2);
    var c := Components(ImageFolder(fileId));
    assert (c + [p1 + ".png"])[|c|] == p1 + ".png";
    assert (c + [p2 + ".png"])[|c|] == p2 + ".png";
    assert p1 == (p1 + ".png")[..|p1|];
    assert p2 == (p2 + ".png")[..|p2|];
  }

  /** Why the payloads above must be free of '/': pathlib drops the empty
      component of a doubled '/', so payloads differing only there are
      written to the same file. */
  lemma DoubledSlashSharesFile(fileId: string, a: string, b: string)
    ensures OutputPath(fileId, a + "//" + b) == OutputPath(fileId, a + "/" + b)
  {
    DoubledSlash(ImageFolder(fileId), a, b);
  }

  /** Guests with distinct ids, and no '/' or '_' where the lemmas above need
      it, get distinct image files. */
  lemma OutputPathsDistinct(fileId: string, g1: Guest, g2: Guest)
    requires '_' !in g1.id && '_' !in g2.id
    requires '/' !in g1.id && '/' !in g2.id && '/' !in g1.name && '/' !in g2.name
    requires g1.id != g2.id
    ensures !SameFile(OutputPath(fileId, Payload(g1.code, g1.name, g1.id)), OutputPath(fileId, Payload(g2.code, g2.name, g2.id)))
  {
    var p1 := Payload(g1.code, g1.name, g1.id);
    var p2 := Payload(g2.code, g2.name, g2.id);
    PayloadEndsWithId(g1.code, g1.name, g1.id);
    PayloadEndsWithId(g2.code, g2.name, g2.id);
    DecimalStringLacks(g1.code, '/');
    DecimalStringLacks(g2.code, '/');
    assert '/' !in p1 && |p1| >= 2;
    assert '/' !in p2 && |p2| >= 2;
    if SameFile(OutputPath(fileId, p1), OutputPath(fileId, p2)) {
      OutputPathInjective(fileId, p1, p2);
    }
  }

  // ---------------------------------------------------------------------------
  // Layout

  /** Python's `a // 2`: the floor of half of `a`, for either sign. */
  function FloorHalf(a: int): (q: int)
    ensures 2 * q <= a <= 2 * q + 1
  {
    a / 2
  }

  /** The measured label leaves the padding free on both axes. */
  predicate FitsBox(e: Extent) {
    e.width <= BoxWidth - Padding && e.height <= BoxHeight - Padding
  }

  /** The label fits the box at this font size. */
  predicate FitsAt(text: string, measure: (string, int) -> Extent, size: int) {
    FitsBox(measure(text, size))
  }

  /** `size` is the size the compositor must use: the largest candidate at
      which the label fits, or the largest candidate when none fits. */
  predicate FontSizeChosen(text: string, measure: (string, int) -> Extent, size: int) {
    && MinFontSize <= size <= MaxFontSize
    && (forall s :: size < s <= MaxFontSize ==> !FitsAt(text, measure, s))
    && (|| FitsAt(text, measure, size)
        || (size == MaxFontSize && forall s :: MinFontSize <= s <= MaxFontSize ==> !FitsAt(text, measure, s)))
  }

  /** The choice of font size is a function of the text and the measurement. */
  lemma FontSizeChosenUnique(text: string, measure: (string, int) -> Extent, a: int, b: int)
    requires FontSizeChosen(text, measure, a)
    requires FontSizeChosen(text, measure, b)
    ensures a == b
  {
  }

  /** The search as a function: the first size from `candidate` down to 19 at
      which the label fits, or the size-30 fallback when none does. */
  function FirstFit(text: string, measure: (string, int) -> Extent, candidate: int): int
    requires MinFontSize - 1 <= candidate <= MaxFontSize
    decreases candidate
  {
    if candidate < MinFontSize then MaxFontSize
    else if FitsAt(text, measure, candidate) then candidate
    else FirstFit(text, measure, candidate - 1)
  }

  /** The font size the compositor uses for `text`. */
  function FontSizeFor(text: string, measure: (string, int) -> Extent): int {
    FirstFit(text, measure, MaxFontSize)
  }

  /** Searching down from `candidate`, when nothing above it fits, yields the
      size the compositor must use. */
  lemma {:induction false} FirstFitChosen(text: string, measure: (string, int) -> Extent, candidate: int)
    requires MinFontSize - 1 <= candidate <= MaxFontSize
    requires forall s :: candidate < s <= MaxFontSize ==> !FitsAt(text, measure, s)
    ensures FontSizeChosen(text, measure, FirstFit(text, measure, candidate))
    decreases candidate
  {
    if MinFontSize <= candidate && !FitsAt(text, measure, candidate) {
      FirstFitChosen(text, measure, candidate - 1);
    }
  }

  /** The functional search meets the specification of the size choice. */
  lemma FontSizeForChosen(text: string, measure: (string, int) -> Extent)
    ensures FontSizeChosen(text, measure, FontSizeFor(text, measure))
  {
    FirstFitChosen(text, measure, MaxFontSize);
  }

  /** The font search: try 30, 29, ..., 19 and stop at the first size that
      fits; keep the size-30 fallback when none does. */
  method ChooseFontSize(text: string, measure: (string, int) -> Extent) returns (size: int)
    ensures FontSizeChosen(text, measure, size)
    ensures (exists s :: MinFontSize <= s <= MaxFontSize && FitsAt(text, measure, s)) ==> FitsAt(text, measure, size)
    ensures (forall s :: MinFontSize <= s <= MaxFontSize ==> !FitsAt(text, measure, s)) ==> size == MaxFontSize
    ensures size == FontSizeFor(text, measure)
  {
    size := MaxFontSize;
    var candidate := MaxFontSize;
    while candidate >= MinFontSize
      invariant MinFontSize - 1 <= candidate <= MaxFontSize
      invariant size == MaxFontSize
      invariant forall s :: candidate < s <= MaxFontSize ==> !FitsAt(text, measure, s)
      invariant FirstFit(text, measure, candidate) == FontSizeFor(text, measure)
    {
      if FitsBox(measure(text, candidate)) {
        size := candidate;
        return;
      }
      candidate := candidate - 1;
    }
  }

  /** The drawing origin for a text whose bounding box measures `e`: the
      point at which a rectangle of that extent, anchored there, is centred in
      the box, the margins on either side differing by at most one pixel and
      the spare pixel going right (or below). */
  function TextOrigin(e: Extent): (p: Point)
    ensures var left := p.x - BoxX;
            var right := (BoxX + BoxWidth) - (p.x + e.width);
            0 <= right - left <= 1
    ensures var top := p.y - BoxY;
            var bottom := (BoxY + BoxHeight) - (p.y + e.height);
            0 <= bottom - top <= 1
  {
    Point(BoxX + FloorHalf(BoxWidth - e.width), BoxY + FloorHalf(BoxHeight - e.height))
  }

  /** Where the resized QR image is pasted on a template `height` pixels tall. */
  function QrOrigin(height: int): (p: Point)
    // the QR image spans exactly the columns of the name box
    ensures p.x == BoxX && p.x + QrSize.width == BoxX + BoxWidth
    ensures p.y + QrSize.height + QrBottomMargin == height
  {
    Point(QrLeft, height - QrSize.height - QrBottomMargin)
  }

  // ---------------------------------------------------------------------------
  // Composition

  /** The label as drawn: its text, font size, origin and colour. */
  datatype TextDraw = TextDraw(text: string, fontSize: int, origin: Point, color: Color)

  /** How the compositor draws `name`: cut to `LabelLimit` characters, at
      the chosen font size, at the origin `TextOrigin` gives for its
      measured extent, in the label colour. */
  function NameDraw(name: string, measure: (string, int) -> Extent): TextDraw {
    var text := Take(name, LabelLimit);
    var size := FontSizeFor(text, measure);
    TextDraw(text, size, TextOrigin(measure(text, size)), FontColor)
  }

  /** `add_name_to_invitation`: cut the name, choose the font size, compute
      the drawing origin. */
  method AddNameToInvitation(name: string, measure: (string, int) -> Extent) returns (d: TextDraw)
    ensures d == NameDraw(name, measure)
    ensures d.text == Take(name, LabelLimit) && |d.text| <= LabelLimit
    ensures FontSizeChosen(d.text, measure, d.fontSize)
    ensures d.origin == TextOrigin(measure(d.text, d.fontSize)) && d.color == FontColor
  {
    var text := Take(name, LabelLimit);
    var size := ChooseFontSize(text, measure);
    d := TextDraw(text, size, TextOrigin(measure(text, size)), FontColor);
  }

  /** What is produced for one guest: the row's payload, what its QR code
      encodes, the temporary and final file paths, the QR's footprint and
      position, and the label drawing. */
  datatype Invitation = Invitation(
    guestId: string,
    qrData: string,
    qrContent: string,
    tempPath: string,
    outputPath: string,
    qrSize: Extent,
    qrOrigin: Point,
    nameDraw: TextDraw)

  /** `inv` is the invitation generated for `g` in run `fileId`. */
  predicate Describes(inv: Invitation, g: Guest, fileId: string, height: int, measure: (string, int) -> Extent) {
    var payload := Payload(g.code, g.name, g.id);
    && inv.guestId == g.id
    && inv.qrData == payload
    && inv.tempPath == TempPath(payload)
    && inv.outputPath == OutputPath(fileId, payload)
    && inv.qrSize == QrSize
    && inv.qrOrigin == QrOrigin(height)
    && inv.nameDraw == NameDraw(NameArgument(g.code, g.name), measure)
    && inv.nameDraw.text == Take(DecimalString(g.code) + "-" + g.name, LabelLimit)
  }

  /** The one QR builder is shared by every row and is never cleared, so after
      the rows of `invitations` it holds their payloads, in order, run
      together. */
  function QrContent(invitations: seq<Invitation>): string
    decreases |invitations|
  {
    if |invitations| == 0 then ""
    else QrContent(invitations[..|invitations| - 1]) + invitations[|invitations| - 1].qrData
  }

  /** The builder's data only grows: what it held after the first `i` rows is
      a prefix of what it holds after the first `j`. */
  lemma {:induction false} QrContentGrows(invitations: seq<Invitation>, i: nat, j: nat)
    requires i <= j <= |invitations|
    ensures QrContent(invitations[..i]) <= QrContent(invitations[..j])
    decreases j - i
  {
    if i < j {
      QrContentGrows(invitations, i, j - 1);
      assert invitations[..j][..j - 1] == invitations[..j - 1];
      PrefixOfLonger(QrContent(invitations[..i]), QrContent(invitations[..j - 1]), invitations[j - 1].qrData);
    }
  }

  /** So from the second row on, a QR code does not encode just its own row:
      it starts with the first row's payload and is strictly longer than the
      row's own payload. */
  lemma LaterQrCodesCarryEarlierRows(invitations: seq<Invitation>, j: nat)
    requires 0 < j < |invitations|
    requires invitations[0].qrData != ""
    ensures invitations[0].qrData <= QrContent(invitations[..j + 1])
    ensures |QrContent(invitations[..j + 1])| > |invitations[j].qrData|
    ensures QrContent(invitations[..j + 1]) != invitations[j].qrData
  {
    var first := invitations[..1];
    assert first[..0] == [];
    assert QrContent(first) == invitations[0].qrData;
    QrContentGrows(invitations, 1, j);
    var upTo := invitations[..j + 1];
    assert upTo[..j] == invitations[..j];
    assert QrContent(upTo) == QrContent(invitations[..j]) + invitations[j].qrData;
  }

  /** One pass of the second loop of `generate_images`; `previous` is what
      the QR builder already holds. */
  method ComposeInvitation(g: Guest, previous: string, fileId: string, height: int, measure: (string, int) -> Extent)
    returns (inv: Invitation)
    ensures Describes(inv, g, fileId, height, measure)
    ensures inv.qrContent == previous + inv.qrData
  {
    var data := Payload(g.code, g.name, g.id);
    var drawn := AddNameToInvitation(NameArgument(g.code, g.name), measure);
    PrintedLabel(g.code, g.name);
    inv := Invitation(g.id, data, previous + data, TempPath(data), OutputPath(fileId, data), QrSize, QrOrigin(height), drawn);
  }

  // ---------------------------------------------------------------------------
  // The pipeline

  /** `df[column] = ...`: an existing column keeps its place, a new one is
      appended. */
  function WithColumn(columns: seq<string>, column: string): (r: seq<string>)
    ensures column in r
    ensures forall c :: c in columns ==> c in r
    ensures column in columns ==> r == columns
    ensures column !in columns ==> r == columns + [column]
  {
    if column in columns then columns else columns + [column]
  }

  /** The outcome of a successful run. */
  datatype Batch = Batch(sheetPath: string, columns: seq<string>, guests: seq<Guest>, invitations: seq<Invitation>)

  /** The rows can be read: there are none, or both columns exist. */
  predicate Readable(s: Sheet) {
    |s.rows| == 0 || ("name" in s.columns && "code" in s.columns)
  }

  /** The detail of a failed run. */
  function ProcessingFailed(e: Exception): string {
    "Excel processing failed: " + Describe(e)
  }

  /** The first loop of `generate_images`: one guest per row, tagged with the
      invitation name and not yet given an id.  Reading a column that is
      missing raises `KeyError`, so a sheet without rows never fails here. */
  method ReadGuests(columns: seq<string>, rows: seq<Row>, invitationName: string) returns (r: Outcome<seq<Guest>>)
    ensures |rows| > 0 && "name" !in columns ==> r == Raises(KeyError("name"))
    ensures |rows| > 0 && "name" in columns && "code" !in columns ==> r == Raises(KeyError("code"))
    ensures r.Returns? <==> |rows| == 0 || ("name" in columns && "code" in columns)
    ensures r.Returns? ==>
              && |r.value| == |rows|
              && forall j :: 0 <= j < |rows| ==> r.value[j] == Guest("", rows[j].name, rows[j].code, invitationName)
  {
    var guests: seq<Guest> := [];
    var i := 0;
    while i < |rows|
      invariant 0 <= i <= |rows|
      invariant i > 0 ==> "name" in columns && "code" in columns
      invariant |guests| == i
      invariant forall j :: 0 <= j < i ==> guests[j] == Guest("", rows[j].name, rows[j].code, invitationName)
    {
      if "name" !in columns {
        return Raises(KeyError("name"));
      }
      if "code" !in columns {
        return Raises(KeyError("code"));
      }
      guests := guests + [Guest("", rows[i].name, rows[i].code, invitationName)];
      i := i + 1;
    }
    r := Returns(guests);
  }

  /** The flush: the store gives the guests their ids, in order. */
  function AssignIds(guests: seq<Guest>, ids: seq<string>): (r: seq<Guest>)
    requires |ids| == |guests|
    ensures |r| == |guests|
    ensures forall j :: 0 <= j < |guests| ==> r[j] == guests[j].(id := ids[j])
  {
    seq(|guests|, j requires 0 <= j < |guests| => guests[j].(id := ids[j]))
  }

  /** Each of `invitations` stands in relation `describes` to the guest in
      the same position, and its QR code holds the payloads of the rows up to
      and including it. */
  predicate AllDescribe(
    invitations: seq<Invitation>, guests: seq<Guest>, describes: (Invitation, Guest) -> bool)
    requires |invitations| <= |guests|
    decreases |invitations|
  {
    |invitations| == 0 ||
    (var n := |invitations| - 1;
     && AllDescribe(invitations[..n], guests, describes)
     && describes(invitations[n], guests[n])
     && invitations[n].qrContent == QrContent(invitations))
  }

  /** `AllDescribe` at one position. */
  lemma {:induction false} AllDescribeAt(
    invitations: seq<Invitation>, guests: seq<Guest>, j: nat, describes: (Invitation, Guest) -> bool)
    requires |invitations| <= |guests|
    requires AllDescribe(invitations, guests, describes)
    requires j < |invitations|
    ensures describes(invitations[j], guests[j])
    ensures invitations[j].qrContent == QrContent(invitations[..j + 1])
    decreases |invitations|
  {
    var n := |invitations| - 1;
    if j < n {
      var earlier := invitations[..n];
      AllDescribeAt(earlier, guests, j, describes);
      assert earlier[j] == invitations[j];
      assert earlier[..j + 1] == invitations[..j + 1];
    } else {
      assert invitations[..j + 1] == invitations;
    }
  }

  /** `AllDescribe` holds position by position. */
  lemma AllDescribeElements(
    invitations: seq<Invitation>, guests: seq<Guest>, describes: (Invitation, Guest) -> bool)
    requires |invitations| <= |guests|
    requires AllDescribe(invitations, guests, describes)
    ensures forall j :: 0 <= j < |invitations| ==> describes(invitations[j], guests[j])
    ensures forall j :: 0 <= j < |invitations| ==> invitations[j].qrContent == QrContent(invitations[..j + 1])
  {
    forall j | 0 <= j < |invitations|
      ensures describes(invitations[j], guests[j])
      ensures invitations[j].qrContent == QrContent(invitations[..j + 1])
    {
      AllDescribeAt(invitations, guests, j, describes);
    }
  }

  /** The second loop of `generate_images`: one invitation per guest, in order. */
  method ComposeAll(guests: seq<Guest>, fileId: string, height: int, measure: (string, int) -> Extent)
    returns (invitations: seq<Invitation>)
    ensures |invitations| == |guests|
    ensures forall j :: 0 <= j < |guests| ==> Describes(invitations[j], guests[j], fileId, height, measure)
    ensures forall j :: 0 <= j < |guests| ==> invitations[j].qrContent == QrContent(invitations[..j + 1])
  {
    var describes := (inv, g) => Describes(inv, g, fileId, height, measure);
    invitations := [];
    var held := "";
    var i := 0;
    while i < |guests|
      invariant 0 <= i <= |guests|
      invariant |invitations| == i
      invariant held == QrContent(invitations)
      invariant AllDescribe(invitations, guests, describes)
    {
      var inv := ComposeInvitation(guests[i], held, fileId, height, measure);
      assert describes(inv, guests[i]);
      held := held + inv.qrData;
      assert (invitations + [inv])[..i] == invitations;
      invitations := invitations + [inv];
      i := i + 1;
    }
    AllDescribeElements(invitations, guests, describes);
  }

  /** The part of `generate_images` inside its `try`, up to the commit: read
      the parsed sheet, add the event-name column, build the guests, let the
      store assign ids and commit, then add the id column.  Any exception is
      passed on as raised. */
  method StoreGuests(sheet: Outcome<Sheet>, invitationName: string, ids: seq<string>, commitError: Option<Exception>)
    returns (r: Outcome<(seq<string>, seq<Guest>)>)
    requires sheet.Returns? ==> |ids| == |sheet.value.rows|
    ensures sheet.Raises? ==> r == Raises(sheet.exc)
    ensures sheet.Returns? && |sheet.value.rows| > 0 && "name" !in sheet.value.columns ==> r == Raises(KeyError("name"))
    ensures sheet.Returns? && |sheet.value.rows| > 0 && "name" in sheet.value.columns && "code" !in sheet.value.columns ==>
              r == Raises(KeyError("code"))
    ensures sheet.Returns? && Readable(sheet.value) && commitError.Some? ==> r == Raises(commitError.value)
    ensures r.Returns? <==> sheet.Returns? && Readable(sheet.value) && commitError.None?
    ensures r.Returns? ==>
              var rows := sheet.value.rows;
              && r.value.0 == WithColumn(WithColumn(sheet.value.columns, "event_name"), "id")
              && |r.value.1| == |rows|
              && (forall i :: 0 <= i < |rows| ==> r.value.1[i] == Guest(ids[i], rows[i].name, rows[i].code, invitationName))
  {
    if sheet.Raises? {
      return Raises(sheet.exc);
    }
    var rows := sheet.value.rows;
    var columns := WithColumn(sheet.value.columns, "event_name");
    assert "name" in columns <==> "name" in sheet.value.columns;
    assert "code" in columns <==> "code" in sheet.value.columns;
    var read := ReadGuests(columns, rows, invitationName);
    if read.Raises? {
      return Raises(read.exc);
    }
    var guests := AssignIds(read.value, ids);
    if commitError.Some? {
      return Raises(commitError.value);
    }
    r := Returns((WithColumn(columns, "id"), guests));
  }

  /** `AuthService.generate_images`.  `uploadSaved` says whether writing the
      upload to disk succeeded, `sheet` is what the spreadsheet parser
      returned or raised, `ids` are the ids the store assigns to the new
      guests, in order, and `commitError` is what the commit raised, if
      anything.  `committed` is the guests left in the store. */
  method GenerateImages(
    uploadSaved: bool, sheet: Outcome<Sheet>, invitationName: string, fileId: string,
    ids: seq<string>, commitError: Option<Exception>,
    height: int, measure: (string, int) -> Extent)
    returns (committed: seq<Guest>, r: Outcome<Batch>)
    requires sheet.Returns? ==> |ids| == |sheet.value.rows|
    ensures !uploadSaved ==> r.IsHttpError(HTTP_400_BAD_REQUEST, "Failed to save file")
    ensures uploadSaved && sheet.Raises? ==> r.IsHttpError(HTTP_400_BAD_REQUEST, ProcessingFailed(sheet.exc))
    ensures uploadSaved && sheet.Returns? && |sheet.value.rows| > 0 && "name" !in sheet.value.columns ==>
              r.IsHttpError(HTTP_400_BAD_REQUEST, "Excel processing failed: 'name'")
    ensures uploadSaved && sheet.Returns? && |sheet.value.rows| > 0 && "name" in sheet.value.columns && "code" !in sheet.value.columns ==>
              r.IsHttpError(HTTP_400_BAD_REQUEST, "Excel processing failed: 'code'")
    ensures uploadSaved && sheet.Returns? && Readable(sheet.value) && commitError.Some? ==>
              r.IsHttpError(HTTP_400_BAD_REQUEST, ProcessingFailed(commitError.value))
    ensures r.Returns? <==> uploadSaved && sheet.Returns? && Readable(sheet.value) && commitError.None?
    ensures r.Raises? ==> committed == [] && r.exc.HTTPException? && r.exc.status == HTTP_400_BAD_REQUEST
    ensures r.Returns? ==>
              var rows := sheet.value.rows;
              var b := r.value;
              && committed == b.guests
              && b.sheetPath == SheetPath(invitationName, fileId)
              && b.columns == WithColumn(WithColumn(sheet.value.columns, "event_name"), "id")
              && |b.guests| == |rows|
              && (forall i :: 0 <= i < |rows| ==> b.guests[i] == Guest(ids[i], rows[i].name, rows[i].code, invitationName))
              && |b.invitations| == |rows|
              && (forall i :: 0 <= i < |rows| ==> Describes(b.invitations[i], b.guests[i], fileId, height, measure))
              && (forall i :: 0 <= i < |rows| ==> b.invitations[i].qrContent == QrContent(b.invitations[..i + 1]))
  {
    committed := [];
    if !uploadSaved {
      r := Fail(HTTP_400_BAD_REQUEST, "Failed to save file");
      return;
    }
    var stored := StoreGuests(sheet, invitationName, ids, commitError);
    if stored.Raises? {
      r := Fail(HTTP_400_BAD_REQUEST, ProcessingFailed(stored.exc));
      return;
    }
    var (columns, guests) := stored.value;
    committed := guests;
    var invitations := ComposeAll(guests, fileId, height, measure);
    r := Returns(Batch(SheetPath(invitationName, fileId), columns, guests, invitations));
  }
}

=== FILE: outcomes.dfy ===
/** Optional values, the Python exceptions the service raises or catches, and
    the outcome of a Python call that either returns a value or raises. */
module Outcomes {

  import Strings

  datatype Option<+T> = None | Some(value: T)

  /** HTTP status codes used by the service. */
  const HTTP_400_BAD_REQUEST: int := 400
  const HTTP_401_UNAUTHORIZED: int := 401
  const HTTP_404_NOT_FOUND: int := 404
  const HTTP_500_INTERNAL_SERVER_ERROR: int := 500

  /** The exceptions that cross the modelled code.  `ExpiredSignatureError` is a
      subclass of `JWTError` in the JWT library; `IsJWTError` encodes that. */
  datatype Exception =
    | HTTPException(status: int, detail: string)
    | JWTError(reason: string)
    | ExpiredSignatureError
    | ValueError(message: string)
    | KeyError(key: string)
    | DatabaseError(className: string, description: string)

  /** `isinstance(e, JWTError)` */
  predicate IsJWTError(e: Exception) {
    e.JWTError? || e.ExpiredSignatureError?
  }

  /** `str(e)` for the exceptions whose text reaches an HTTP detail. */
  function Describe(e: Exception): string {
    match e
    case HTTPException(status, detail) => Strings.DecimalString(status) + ": " + detail
    case JWTError(reason) => reason
    case ExpiredSignatureError => "Signature has expired."
    case ValueError(message) => message
    case KeyError(key) => "'" + key + "'"
    case DatabaseError(_, description) => description
  }

  /** `str(type(e))`, as interpolated into the service's 500 details. */
  function TypeRepr(e: Exception): string {
    var name := match e
      case HTTPException(_, _) => "fastapi.exceptions.HTTPException"
      case JWTError(_) => "jose.exceptions.JWTError"
      case ExpiredSignatureError => "jose.exceptions.ExpiredSignatureError"
      case ValueError(_) => "ValueError"
      case KeyError(_) => "KeyError"
      case DatabaseError(className, _) => className;
    "<class '" + name + "'>"
  }

  /** A Python call: it returns a value or raises an exception. */
  datatype Outcome<+T> = Returns(value: T) | Raises(exc: Exception) {

    /** True when the call raised an `HTTPException` with this status and detail. */
    predicate IsHttpError(status: int, detail: string) {
      Raises? && exc == HTTPException(status, detail)
    }
  }

  /** `raise HTTPException(status_code=status, detail=detail)` */
  function Fail<T>(status: int, detail: string): (r: Outcome<T>)
    ensures r.IsHttpError(status, detail)
  {
    Raises(HTTPException(status, detail))
  }
}

=== FILE: paths.dfy ===
/** Relative paths as `pathlib.PurePosixPath` reads them.  A path is kept as
    the text the code joins; what it names is its list of components, in
    which empty components (from a doubled or trailing '/') and "." ones are
    dropped, as pathlib and the operating system both drop them. */
module Paths {

  import opened Strings

  /** A component pathlib keeps. */
  predicate Significant(c: string) {
    c != "" && c != "."
  }

  /** The significant pieces, in order. */
  function Kept(parts: seq<string>): (r: seq<string>)
    ensures forall c :: c in r <==> c in parts && Significant(c)
    ensures |r| <= |parts|
  {
    if |parts| == 0 then []
    else
      assert forall c :: c in parts <==> c == parts[0] || c in parts[1..];
      (if Significant(parts[0]) then [parts[0]] else []) + Kept(parts[1..])
  }

  /** The components of a relative path. */
  function Components(path: string): (cs: seq<string>)
    ensures forall i :: 0 <= i < |cs| ==> Significant(cs[i]) && '/' !in cs[i]
  {
    var parts := Split(path, '/');
    var cs := Kept(parts);
    assert forall i :: 0 <= i < |cs| ==> cs[i] in parts;
    cs
  }

  /** Two path texts name the same file. */
  predicate SameFile(p: string, q: string) {
    Components(p) == Components(q)
  }

  /** `str(PurePosixPath(path))`: the components joined by '/', or "." when
      there are none. */
  function Render(path: string): string {
    var cs := Components(path);
    if |cs| == 0 then "." else Join(cs, '/')
  }

  /** `PurePosixPath(path).name`: the last component, or "" when there are
      none. */
  function Name(path: string): string {
    var cs := Components(path);
    if |cs| == 0 then "" else cs[|cs| - 1]
  }

  /** Keeping distributes over concatenation. */
  lemma {:induction false} KeptAppend(a: seq<string>, b: seq<string>)
    ensures Kept(a + b) == Kept(a) + Kept(b)
    decreases |a|
  {
    if |a| == 0 {
      assert a + b == b;
    } else {
      assert (a + b)[0] == a[0];
      assert (a + b)[1..] == a[1..] + b;
      KeptAppend(a[1..], b);
    }
  }

  /** Pieces that are all significant are kept as they are. */
  lemma {:induction false} KeptAll(parts: seq<string>)
    requires forall i :: 0 <= i < |parts| ==> Significant(parts[i])
    ensures Kept(parts) == parts
    decreases |parts|
  {
    if |parts| > 0 {
      KeptAll(parts[1..]);
    }
  }

  /** `dir / rest`: the components of the two sides, one after the other. */
  lemma ComponentsJoin(dir: string, rest: string)
    ensures Components(dir + "/" + rest) == Components(dir) + Components(rest)
  {
    assert dir + "/" + rest == dir + ['/'] + rest;
    SplitAppend(dir, rest, '/');
    KeptAppend(Split(dir, '/'), Split(rest, '/'));
  }

  /** A text without '/' is one component, unless it is "" or ".", which
      are none. */
  lemma ComponentsOfPlain(leaf: string)
    requires '/' !in leaf
    ensures Components(leaf) == if Significant(leaf) then [leaf] else []
  {
    SplitWithoutSeparator(leaf, '/');
    assert Kept([leaf]) == (if Significant(leaf) then [leaf] else []) + Kept([]);
  }

  /** `(Path(dir) / leaf).name`: the leaf's own name, or the directory's name
      when the leaf has no components ("", ".", "/", ...). */
  lemma NameAfterDir(dir: string, leaf: string)
    ensures Name(dir + "/" + leaf) == if Components(leaf) == [] then Name(dir) else Name(leaf)
  {
    ComponentsJoin(dir, leaf);
    var a, b := Components(dir), Components(leaf);
    if b == [] {
      assert a + b == a;
    } else {
      assert (a + b)[|a + b| - 1] == b[|b| - 1];
    }
  }

  /** For a leaf without '/', that is the leaf itself, unless it is "" or
      ".". */
  lemma NameOfPlainLeaf(dir: string, leaf: string)
    requires '/' !in leaf
    ensures Name(dir + "/" + leaf) == if Significant(leaf) then leaf else Name(dir)
  {
    NameAfterDir(dir, leaf);
    ComponentsOfPlain(leaf);
  }

  /** Joining components and reading them back gives the components. */
  lemma ComponentsOfJoin(cs: seq<string>)
    requires |cs| >= 1
    requires forall i :: 0 <= i < |cs| ==> Significant(cs[i]) && '/' !in cs[i]
    ensures Components(Join(cs, '/')) == cs
  {
    SplitJoin(cs, '/');
    KeptAll(cs);
  }

  /** The rendered path names the same file as the text it came from. */
  lemma RenderSameFile(path: string)
    ensures SameFile(Render(path), path)
  {
    var cs := Components(path);
    if |cs| == 0 {
      ComponentsOfPlain(".");
    } else {
      ComponentsOfJoin(cs);
    }
  }

  /** `f"{Path(dir) / leaf}{ext}"` for a leaf that is one component: the
      directory's components, then the leaf with the suffix. */
  lemma RenderedChild(dir: string, leaf: string, ext: string)
    requires '/' !in leaf && Significant(leaf) && '/' !in ext
    ensures Components(Render(dir + "/" + leaf) + ext) == Components(dir) + [leaf + ext]
  {
    var c := Components(dir);
    ChildComponents(dir, leaf);
    if |c| == 0 {
      assert Render(dir + "/" + leaf) == leaf;
      ComponentsOfPlain(leaf + ext);
    } else {
      JoinAppend(c, leaf, '/');
      RenderedChildText(Join(c, '/'), leaf, ext);
      ComponentsJoin(Join(c, '/'), leaf + ext);
      ComponentsOfJoin(c);
      ComponentsOfPlain(leaf + ext);
    }
  }

  /** The components of `dir / leaf` for a one-component leaf. */
  lemma ChildComponents(dir: string, leaf: string)
    requires '/' !in leaf && Significant(leaf)
    ensures Components(dir + "/" + leaf) == Components(dir) + [leaf]
  {
    ComponentsJoin(dir, leaf);
    ComponentsOfPlain(leaf);
  }

  /** Regrouping the text of a rendered child and its suffix. */
  lemma RenderedChildText(j: string, leaf: string, ext: string)
    ensures j + ['/'] + leaf + ext == j + "/" + (leaf + ext)
  {
  }

  /** Without '/', "" has no components. */
  lemma NoComponents()
    ensures Components("") == []
  {
    ComponentsOfPlain("");
  }

  /** A doubled '/' names the same components as a single one. */
  lemma DoubledSlashComponents(a: string, b: string)
    ensures Components(a + "//" + b) == Components(a + "/" + b)
  {
    var t := "/" + b;
    DoubledSlashText(a, b);
    ComponentsJoin(a, t);
    LeadingSlashComponents(b);
    ComponentsJoin(a, b);
  }

  /** Regrouping a doubled '/'. */
  lemma DoubledSlashText(a: string, b: string)
    ensures a + "//" + b == a + "/" + ("/" + b)
  {
  }

  /** A leading '/' adds no component to a relative path. */
  lemma LeadingSlashComponents(b: string)
    ensures Components("/" + b) == Components(b)
  {
    assert "/" + b == "" + "/" + b;
    ComponentsJoin("", b);
    NoComponents();
  }

  /** A doubled '/' inside a leaf renders the same path as a single one. */
  lemma DoubledSlash(dir: string, a: string, b: string)
    ensures Render(dir + "/" + (a + "//" + b)) == Render(dir + "/" + (a + "/" + b))
  {
    DoubledSlashComponents(a, b);
    ComponentsJoin(dir, a + "//" + b);
    ComponentsJoin(dir, a + "/" + b);
  }

  /** A text without '/' that is neither "" nor "." is its own name. */
  lemma NameOfPlain(leaf: string)
    ensures '/' !in leaf && Significant(leaf) ==> Name(leaf) == leaf
  {
    if '/' !in leaf {
      ComponentsOfPlain(leaf);
    }
  }
}

=== FILE: records.dfy ===
/** The persisted entities the service reads and writes, and the table queries
    it issues through the ORM (`filter(...).first()`, `filter(...).all()`).
    A table is a sequence of rows in the order the store returns them. */
module Records {

  import opened Outcomes

  /** A registered host (the account that owns invitation batches). */
  datatype Host = Host(
    id: string,
    email: string,
    hashedPassword: string,
    firstName: Option<string>,
    lastName: Option<string>,
    isActive: bool,
    lastLogin: Option<int>)

  /** A guest created from one spreadsheet row. */
  datatype Guest = Guest(id: string, name: string, code: int, eventName: string)

  /** The two equality filters the service applies to the host table. */
  datatype Key = ByEmail(email: string) | ById(id: string)

  predicate Matches(h: Host, key: Key) {
    match key
    case ByEmail(e) => h.email == e
    case ById(i) => h.id == i
  }

  /** Some row of the table satisfies the filter. */
  predicate Has(hosts: seq<Host>, key: Key) {
    exists i :: 0 <= i < |hosts| && Matches(hosts[i], key)
  }

  /** `db.query(Host).filter(key).first()`, as the position of the row found. */
  function FirstMatch(hosts: seq<Host>, key: Key): (r: Option<nat>)
    ensures r.Some? ==> r.value < |hosts| && Matches(hosts[r.value], key)
    ensures r.Some? ==> forall j :: 0 <= j < r.value ==> !Matches(hosts[j], key)
    ensures r.None? <==> !Has(hosts, key)
  {
    if |hosts| == 0 then None
    else if Matches(hosts[0], key) then Some(0)
    else match FirstMatch(hosts[1..], key)
      case None => None
      case Some(k) => Some(k + 1)
  }

  /** `db.query(Host).filter(Host.email != email).all()`, order preserved. */
  function Excluding(hosts: seq<Host>, email: string): (r: seq<Host>)
    ensures forall h :: h in r <==> h in hosts && h.email != email
    ensures |r| <= |hosts|
    ensures (forall i :: 0 <= i < |hosts| ==> hosts[i].email != email) ==> r == hosts
  {
    if |hosts| == 0 then []
    else
      var rest := Excluding(hosts[1..], email);
      assert hosts == [hosts[0]] + hosts[1..];
      if hosts[0].email != email then [hosts[0]] + rest else rest
  }

  /** The primary key really is unique. */
  predicate UniqueIds(hosts: seq<Host>) {
    forall i, j :: 0 <= i < j < |hosts| ==> hosts[i].id != hosts[j].id
  }

  /** No two hosts share an email address. */
  predicate UniqueEmails(hosts: seq<Host>) {
    forall i, j :: 0 <= i < j < |hosts| ==> hosts[i].email != hosts[j].email
  }

  /** With unique ids, looking a host up by id finds exactly that host. */
  lemma FirstMatchUniqueId(hosts: seq<Host>, i: nat)
    requires UniqueIds(hosts)
    requires i < |hosts|
    ensures FirstMatch(hosts, ById(hosts[i].id)) == Some(i)
  {
    assert Matches(hosts[i], ById(hosts[i].id));
  }
}

=== FILE: repository.dfy ===
/** `get_current_host`: the dependency every protected endpoint runs first.
    It decodes the bearer token, then checks, in this order, that the token
    names a host, that the host exists and that it is active; whatever goes
    wrong is turned into an `HTTPException`. */
module Repository {

  import opened Outcomes
  import opened Records
  import opened Tokens

  /** The subject claim is present and truthy (a non-empty string). */
  predicate HasSubject(c: Claims) {
    c.sub.Some? && c.sub.value != ""
  }

  /** The checks inside the `try` once the token decoded to `payload`. */
  function CheckClaims(payload: Claims, hosts: seq<Host>): (r: Outcome<Host>)
    ensures r.Raises? ==> r.exc.HTTPException?
  {
    if !HasSubject(payload) then
      Fail(HTTP_401_UNAUTHORIZED, "Token missing host ID")
    else
      match FirstMatch(hosts, ById(payload.sub.value))
      case None => Fail(HTTP_401_UNAUTHORIZED, "Host not found")
      case Some(k) =>
        if !hosts[k].isActive then Fail(HTTP_400_BAD_REQUEST, "Host is inactive")
        else Returns(hosts[k])
  }

  /** The `except` clauses, in order: HTTP errors pass through, JWT errors and
      then everything else become 401s. */
  function Translate(e: Exception): (t: Exception)
    ensures t.HTTPException?
    ensures e.HTTPException? ==> t == e
    ensures !e.HTTPException? ==> t.status == HTTP_401_UNAUTHORIZED
  {
    if e.HTTPException? then e
    else if IsJWTError(e) then HTTPException(HTTP_401_UNAUTHORIZED, "Token is invalid or expired")
    else HTTPException(HTTP_401_UNAUTHORIZED, "Could not validate credentials")
  }

  /** The host a token authenticates: decoding succeeds, the subject is
      present, some host has that id, and the first such host is active. */
  predicate Authenticates(token: string, jwtDecode: string -> JwtDecoded, hosts: seq<Host>) {
    var d := DecodeAccessToken(token, jwtDecode);
    && d.Returns?
    && HasSubject(d.value)
    && Has(hosts, ById(d.value.sub.value))
    && hosts[FirstMatch(hosts, ById(d.value.sub.value)).value].isActive
  }

  function GetCurrentHost(token: string, jwtDecode: string -> JwtDecoded, hosts: seq<Host>): (r: Outcome<Host>)
    // a host is returned exactly when it exists, is active and is the token's subject
    ensures r.Returns? <==> Authenticates(token, jwtDecode, hosts)
    ensures r.Returns? ==> r.value in hosts && r.value.isActive
    ensures r.Returns? ==> Some(r.value.id) == DecodeAccessToken(token, jwtDecode).value.sub
    // every failure is an HTTP 401, except an inactive host, which is a 400
    ensures r.Raises? ==> r.exc.HTTPException?
    ensures r.Raises? ==> r.exc.status == HTTP_401_UNAUTHORIZED || r.exc == HTTPException(HTTP_400_BAD_REQUEST, "Host is inactive")
    // the JWT clause is dead: decoding has already turned JWT errors into ValueErrors
    ensures r.Raises? ==> r.exc.detail != "Token is invalid or expired"
    // a 400 is only ever reported for a token that decoded and named an existing host
    ensures r.Raises? && r.exc.status == HTTP_400_BAD_REQUEST ==>
              var d := DecodeAccessToken(token, jwtDecode);
              d.Returns? && HasSubject(d.value) && Has(hosts, ById(d.value.sub.value))
  {
    var attempt :=
      match DecodeAccessToken(token, jwtDecode)
      case Raises(e) => Raises(e)
      case Returns(payload) => CheckClaims(payload, hosts);
    match attempt
    case Returns(host) => Returns(host)
    case Raises(e) => Raises(Translate(e))
  }

  /** A token the library cannot decode (bad signature, expired, malformed) is
      rejected with the generic message. */
  lemma UndecodableTokenRejected(token: string, jwtDecode: string -> JwtDecoded, hosts: seq<Host>)
    requires !jwtDecode(StripBearer(token)).Decoded?
    ensures GetCurrentHost(token, jwtDecode, hosts).IsHttpError(HTTP_401_UNAUTHORIZED, "Could not validate credentials")
  {
  }

  /** A decoded token without a subject is rejected before any lookup. */
  lemma MissingSubjectRejected(token: string, jwtDecode: string -> JwtDecoded, hosts: seq<Host>)
    requires jwtDecode(StripBearer(token)).Decoded?
    requires !HasSubject(jwtDecode(StripBearer(token)).claims)
    ensures GetCurrentHost(token, jwtDecode, hosts).IsHttpError(HTTP_401_UNAUTHORIZED, "Token missing host ID")
  {
  }

  /** A subject no host has is rejected as not found. */
  lemma UnknownHostRejected(token: string, jwtDecode: string -> JwtDecoded, hosts: seq<Host>)
    requires jwtDecode(StripBearer(token)).Decoded?
    requires HasSubject(jwtDecode(StripBearer(token)).claims)
    requires !Has(hosts, ById(jwtDecode(StripBearer(token)).claims.sub.value))
    ensures GetCurrentHost(token, jwtDecode, hosts).IsHttpError(HTTP_401_UNAUTHORIZED, "Host not found")
  {
  }

  /** A subject naming an inactive host is rejected with 400. */
  lemma InactiveHostRejected(token: string, jwtDecode: string -> JwtDecoded, hosts: seq<Host>, i: nat)
    requires UniqueIds(hosts)
    requires i < |hosts| && !hosts[i].isActive
    requires jwtDecode(StripBearer(token)).Decoded?
    requires jwtDecode(StripBearer(token)).claims.sub == Some(hosts[i].id)
    requires hosts[i].id != ""
    ensures GetCurrentHost(token, jwtDecode, hosts).IsHttpError(HTTP_400_BAD_REQUEST, "Host is inactive")
  {
    FirstMatchUniqueId(hosts, i);
  }
}

=== FILE: router.dfy ===
/** The HTTP endpoints.  Every protected endpoint first runs the
    `get_current_host` dependency; its result arrives as `auth` and a failure
    there is the endpoint's response.  The file system is a lookup from a path
    to what is stored there. */
module Router {

  import opened Outcomes
  import opened Strings
  import opened Records
  import opened Tokens
  import Accounts
  import Repository
  import opened Invitations
  import opened Paths

  /** A file sent back to the client: where it is read from, the name the
      client is offered, and its media type. */
  datatype FileResponse = FileResponse(path: string, filename: string, mediaType: string)

  const PngType: string := "image/png"
  const XlsxType: string := "application/vnd.openxmlformats-officedocument.spreadsheetml.sheet"

  datatype EntryKind = RegularFile | Directory | OtherKind
  datatype Entry = Entry(name: string, kind: EntryKind)

  /** What a path names: a file, or a directory and its entries in listing order. */
  datatype Node = FileNode | DirNode(entries: seq<Entry>)

  // ---------------------------------------------------------------------------
  // Paths and names

  /** The name of the spreadsheet folder `Path("src") / "excel"`. */
  lemma ExcelFolderName()
    ensures Name("src/excel") == "excel"
  {
    assert "src/excel" == "src" + "/" + "excel";
    NameOfPlainLeaf("src", "excel");
  }

  /** The image path of `get_image`. */
  function ImagePath(id: string, imgName: string): string {
    "src/images/" + id + "/" + imgName
  }

  /** The spreadsheet path of `get_excel`. */
  function ExcelPath(excelName: string): string {
    "src/excel/" + excelName
  }

  /** The name offered for a downloaded image: every `_`-separated piece but
      the last, glued together with nothing between them, then ".png". */
  function DownloadName(fileName: string): string {
    var parts := Split(fileName, '_');
    Concat(parts[..|parts| - 1]) + ".png"
  }

  /** The last `_` and what follows it are dropped; underscores before it are
      dropped too rather than kept. */
  lemma {:induction false} DownloadNameDropsUnderscores(stem: string, tail: string)
    requires '_' !in tail
    ensures DownloadName(stem + "_" + tail) == RemoveChar(stem, '_') + ".png"
  {
    assert stem + "_" + tail == stem + ['_'] + tail;
    SplitAppend(stem, tail, '_');
    SplitWithoutSeparator(tail, '_');
    var parts := Split(stem, '_') + [tail];
    assert parts[..|parts| - 1] == Split(stem, '_');
    ConcatSplit(stem, '_');
  }

  /** A name without any `_` is offered as just ".png". */
  lemma DownloadNameWithoutUnderscore(fileName: string)
    requires '_' !in fileName
    ensures DownloadName(fileName) == ".png"
  {
    SplitWithoutSeparator(fileName, '_');
  }

  /** "a_b_c.png" is offered as "ab.png". */
  lemma DownloadNameExample(fileName: string)
    requires fileName == "a_b_c.png"
    ensures DownloadName(fileName) == "ab.png"
  {
    var stem, tail := "a_b", "c.png";
    assert fileName == stem + "_" + tail;
    DownloadNameDropsUnderscores(stem, tail);
    UnderscoreDropped();
  }

  lemma UnderscoreDropped()
    ensures RemoveChar("a_b", '_') == "ab"
  {
    assert "a_b"[1..] == "_b";
    assert "_b"[1..] == "b";
  }

  /** The URL passed to registration: trailing slashes stripped, then every
      occurrence of "/register" removed (not only a final one). */
  function FullUrl(url: string): (r: string)
    ensures |r| <= |url|
  {
    ReplaceAll(RStrip(url, '/'), "/register", "")
  }

  /** Stripping trailing slashes from a text that ends in something else
      followed only by slashes leaves exactly that text. */
  lemma {:induction false} RStripTrailing(x: string, slashes: string)
    requires |x| > 0 && x[|x| - 1] != '/'
    requires forall i :: 0 <= i < |slashes| ==> slashes[i] == '/'
    ensures RStrip(x + slashes, '/') == x
    decreases |slashes|
  {
    if |slashes| == 0 {
      assert x + slashes == x;
    } else {
      var s := x + slashes;
      assert s[..|s| - 1] == x + slashes[..|slashes| - 1];
      RStripTrailing(x, slashes[..|slashes| - 1]);
    }
  }

  /** A request URL ending in "/register" (with any trailing slashes) gives
      the URL without it, when "/register" occurs nowhere earlier. */
  lemma FullUrlOfRegister(base: string, slashes: string)
    requires forall i :: 0 <= i < |slashes| ==> slashes[i] == '/'
    requires forall i :: 0 <= i < |base| ==> !StartsWith(base[i..] + "/register", "/register")
    ensures FullUrl(base + "/register" + slashes) == base
  {
    RStripTrailing(base + "/register", slashes);
    ReplaceAllAppend(base, "/register", "/register", "");
    ReplaceAllLeading("", "/register", "");
    assert "/register" + "" == "/register";
  }

  /** A URL in which "/register" does not occur is only stripped of its
      trailing slashes. */
  lemma FullUrlWithoutRegister(url: string)
    requires !Contains(RStrip(url, '/'), "/register")
    ensures FullUrl(url) == RStrip(url, '/')
  {
    ReplaceAllAbsent(RStrip(url, '/'), "/register", "");
  }

  /** An occurrence that is not at the end is removed as well, e.g. a URL
      that starts with "/register" followed by more path. */
  lemma FullUrlLeadingOccurrence(rest: string)
    requires |rest| > 0 && rest[|rest| - 1] != '/'
    ensures FullUrl("/register" + rest) == ReplaceAll(rest, "/register", "")
  {
    var s := "/register" + rest;
    assert s[|s| - 1] == rest[|rest| - 1];
    RStripTrailing(s, "");
    assert s + "" == s;
    ReplaceAllLeading(rest, "/register", "");
  }

  // ---------------------------------------------------------------------------
  // Directory listings

  /** Names of the entries of one kind, in listing order. */
  function NamesOfKind(entries: seq<Entry>, kind: EntryKind): (names: seq<string>)
    ensures forall n :: n in names <==> exists e :: e in entries && e.name == n && e.kind == kind
    ensures |names| <= |entries|
  {
    if |entries| == 0 then []
    else
      var rest := NamesOfKind(entries[1..], kind);
      assert forall e :: e in entries <==> e == entries[0] || e in entries[1..];
      if entries[0].kind == kind then [entries[0].name] + rest else rest
  }

  /** A listing endpoint's body: a missing path, or one that is not a
      directory, is a 404; otherwise the names of the entries of `kind`. */
  function ListDirectory(node: Option<Node>, kind: EntryKind): (r: Outcome<seq<string>>)
    ensures (node.None? || node.value.FileNode?) <==> r.IsHttpError(HTTP_404_NOT_FOUND, "Folder not found")
    ensures node.Some? && node.value.DirNode? ==> r == Returns(NamesOfKind(node.value.entries, kind))
    ensures r.Returns? ==> forall n :: n in r.value <==> exists e :: e in node.value.entries && e.name == n && e.kind == kind
  {
    if node.None? || !node.value.DirNode? then Fail(HTTP_404_NOT_FOUND, "Folder not found")
    else Returns(NamesOfKind(node.value.entries, kind))
  }

  /** `GET /excel_files`: the files in the spreadsheet folder. */
  function ExcelFiles(auth: Outcome<Host>, fs: seq<string> -> Option<Node>): (r: Outcome<seq<string>>)
    ensures auth.Raises? ==> r == Raises(auth.exc)
    ensures auth.Returns? ==> r == ListDirectory(fs(["src", "excel"]), RegularFile)
  {
    if auth.Raises? then Raises(auth.exc) else ListDirectory(fs(["src", "excel"]), RegularFile)
  }

  /** `GET /images_folders`: the run folders under the image folder. */
  function ImagesFolders(auth: Outcome<Host>, fs: seq<string> -> Option<Node>): (r: Outcome<seq<string>>)
    ensures auth.Raises? ==> r == Raises(auth.exc)
    ensures auth.Returns? ==> r == ListDirectory(fs(["src", "images"]), Directory)
  {
    if auth.Raises? then Raises(auth.exc) else ListDirectory(fs(["src", "images"]), Directory)
  }

  /** `GET /images_files/{id}`: the files of one run. */
  function ImagesFiles(auth: Outcome<Host>, fs: seq<string> -> Option<Node>, id: string): (r: Outcome<seq<string>>)
    ensures auth.Raises? ==> r == Raises(auth.exc)
    ensures auth.Returns? ==> r == ListDirectory(fs(Components(ImageFolder(id))), RegularFile)
  {
    if auth.Raises? then Raises(auth.exc) else ListDirectory(fs(Components(ImageFolder(id))), RegularFile)
  }

  /** With distinct entry names, no name is listed both as a file and as a
      folder. */
  lemma FilesAndFoldersDisjoint(entries: seq<Entry>, n: string)
    requires forall i, j :: 0 <= i < j < |entries| ==> entries[i].name != entries[j].name
    ensures !(n in NamesOfKind(entries, RegularFile) && n in NamesOfKind(entries, Directory))
  {
  }

  // ---------------------------------------------------------------------------
  // Downloads

  /** `GET /image_file/{id}?img_name=...`: the offered name is cut from the
      path's name, which is the image name's last component, or the run
      folder's name when the image name has none ("", ".", "/"). */
  function GetImage(auth: Outcome<Host>, id: string, imgName: string): (r: Outcome<FileResponse>)
    ensures auth.Raises? ==> r == Raises(auth.exc)
    ensures auth.Returns? ==> r.Returns? && r.value.path == ImagePath(id, imgName) && r.value.mediaType == PngType
    ensures auth.Returns? ==>
              r.value.filename == DownloadName(if Components(imgName) == [] then Name(ImageFolder(id)) else Name(imgName))
    ensures auth.Returns? && '/' !in imgName && Significant(imgName) ==> r.value.filename == DownloadName(imgName)
  {
    if auth.Raises? then Raises(auth.exc)
    else
      var path := ImagePath(id, imgName);
      assert path == ImageFolder(id) + "/" + imgName;
      NameAfterDir(ImageFolder(id), imgName);
      NameOfPlain(imgName);
      ComponentsOfPlainIfPlain(imgName);
      Returns(FileResponse(path, DownloadName(Name(path)), PngType))
  }

  /** `GET /excel_file/{id}?excel_name=...`: the offered name is the path's
      name, so an `excel_name` without components offers "excel". */
  function GetExcel(auth: Outcome<Host>, excelName: string): (r: Outcome<FileResponse>)
    ensures auth.Raises? ==> r == Raises(auth.exc)
    ensures auth.Returns? ==> r.Returns? && r.value.path == ExcelPath(excelName) && r.value.mediaType == XlsxType
    ensures auth.Returns? ==> r.value.filename == if Components(excelName) == [] then "excel" else Name(excelName)
    ensures auth.Returns? && '/' !in excelName && Significant(excelName) ==> r.value.filename == excelName
    ensures auth.Returns? && (excelName == "" || excelName == ".") ==> r.value.filename == "excel"
  {
    if auth.Raises? then Raises(auth.exc)
    else
      var path := ExcelPath(excelName);
      assert path == "src/excel" + "/" + excelName;
      NameAfterDir("src/excel", excelName);
      ExcelFolderName();
      NameOfPlain(excelName);
      ComponentsOfPlainIfPlain(excelName);
      Returns(FileResponse(path, Name(path), XlsxType))
  }

  /** `ComponentsOfPlain` as an implication, for use inside expressions. */
  lemma ComponentsOfPlainIfPlain(leaf: string)
    ensures '/' !in leaf ==> Components(leaf) == if Significant(leaf) then [leaf] else []
  {
    if '/' !in leaf {
      ComponentsOfPlain(leaf);
    }
  }

  /** An image the pipeline wrote is served from the file it was written to,
      under the name "<code>-<name>.png", when neither the name nor the id
      holds `_` or `/`. */
  lemma GeneratedImageServed(host: Host, fileId: string, g: Guest)
    requires '_' !in g.name && '_' !in g.id
    requires '/' !in g.name && '/' !in g.id
    ensures var payload := Payload(g.code, g.name, g.id);
            var r := GetImage(Returns(host), fileId, payload + ".png");
            && r.Returns?
            && SameFile(r.value.path, OutputPath(fileId, payload))
            && r.value.filename == DecimalString(g.code) + "-" + g.name + ".png"
            && r.value.mediaType == PngType
  {
    var ds := DecimalString(g.code);
    var payload := Payload(g.code, g.name, g.id);
    var file := payload + ".png";
    var stem := ds + "-" + g.name;
    var tail := g.id + ".png";
    DecimalStringLacks(g.code, '/');
    DecimalStringLacks(g.code, '_');
    assert file == stem + "_" + tail;
    assert '_' !in stem && '_' !in tail;
    assert '/' !in payload && |payload| >= 2;
    var r := GetImage(Returns(host), fileId, file);
    assert r.value.path == ImageFolder(fileId) + "/" + file;
    ChildComponents(ImageFolder(fileId), file);
    OutputPathComponents(fileId, payload);
    DownloadNameDropsUnderscores(stem, tail);
  }

  /** The spreadsheet a run saved is served from where it was saved, under
      the name it was saved with. */
  lemma SavedSheetServed(host: Host, invitationName: string, fileId: string)
    requires '/' !in invitationName && '/' !in fileId
    ensures var name := invitationName + "_" + fileId + ".xlsx";
            GetExcel(Returns(host), name) == Returns(FileResponse(SheetPath(invitationName, fileId), name, XlsxType))
  {
    var name := invitationName + "_" + fileId + ".xlsx";
    assert '/' !in name && |name| >= 5;
    assert ExcelPath(name) == SheetPath(invitationName, fileId);
  }

  // ---------------------------------------------------------------------------
  // Account endpoints

  /** `POST /login`: the form's username is the email. */
  function Login(
    hosts: seq<Host>, username: string, password: string,
    verify: (string, string) -> bool, now: int, expireMinutes: int,
    encode: Claims -> string): (r: Outcome<(seq<Host>, Accounts.Token)>)
    ensures r.Raises? ==> r.exc.HTTPException? && r.exc.status == HTTP_401_UNAUTHORIZED
    ensures r.Returns? <==>
              Accounts.CredentialsMatch(hosts, username, password, verify)
              && hosts[FirstMatch(hosts, ByEmail(username)).value].isActive
    ensures r.Returns? ==> r.value.1.tokenType == "bearer" && Has(hosts, ByEmail(username))
  {
    Accounts.Login(hosts, username, password, verify, now, expireMinutes, encode)
  }

  /** `POST /register` */
  function Register(
    hosts: seq<Host>, url: string, data: Accounts.HostCreate, hashed: string, newId: string,
    commitError: Option<Exception>): (r: Outcome<(seq<Host>, Host)>)
    // the derived URL is handed on but the outcome does not depend on it
    ensures r == Accounts.Register(hosts, data, hashed, newId, commitError, "")
  {
    Accounts.RegisterIgnoresUrl(hosts, data, hashed, newId, commitError, FullUrl(url), "");
    Accounts.Register(hosts, data, hashed, newId, commitError, FullUrl(url))
  }

  /** `GET /validate-token` */
  function ValidateToken(auth: Outcome<Host>): (r: Outcome<string>)
    ensures auth.Raises? ==> r == Raises(auth.exc)
    ensures auth.Returns? ==> r == Returns("Token is valid")
  {
    if auth.Raises? then Raises(auth.exc) else Returns("Token is valid")
  }

  /** `GET /get_host`: every other host. */
  function GetHosts(auth: Outcome<Host>, hosts: seq<Host>): (r: Outcome<seq<Host>>)
    ensures auth.Raises? ==> r == Raises(auth.exc)
    ensures auth.Returns? ==> r.Returns? && forall h :: h in r.value <==> h in hosts && h.email != auth.value.email
  {
    if auth.Raises? then Raises(auth.exc) else Returns(Accounts.GetAllHosts(hosts, auth.value.email))
  }

  /** `GET /activate_host?host_email=...` */
  function ActivateHost(auth: Outcome<Host>, hosts: seq<Host>, hostEmail: string, commitError: Option<Exception>): (r: Outcome<(seq<Host>, string)>)
    ensures auth.Raises? ==> r == Raises(auth.exc)
    ensures auth.Returns? ==> r == Accounts.ActivateHost(hosts, hostEmail, commitError)
  {
    if auth.Raises? then Raises(auth.exc) else Accounts.ActivateHost(hosts, hostEmail, commitError)
  }

  /** `POST /process-invitation-file`: runs the pipeline and sends back the
      updated spreadsheet. */
  method ProcessInvitationFile(
    auth: Outcome<Host>, uploadSaved: bool, sheet: Outcome<Sheet>, invitationName: string, fileId: string,
    ids: seq<string>, commitError: Option<Exception>, height: int, measure: (string, int) -> Extent)
    returns (committed: seq<Guest>, r: Outcome<FileResponse>)
    requires sheet.Returns? ==> |ids| == |sheet.value.rows|
    ensures auth.Raises? ==> r == Raises(auth.exc) && committed == []
    // once authenticated, the upload succeeds exactly when the pipeline does,
    // and a pipeline failure is the response
    ensures auth.Returns? ==>
              (r.Returns? <==> uploadSaved && sheet.Returns? && Readable(sheet.value) && commitError.None?)
    ensures auth.Returns? && r.Raises? ==>
              r.exc.HTTPException? && r.exc.status == HTTP_400_BAD_REQUEST && committed == []
    ensures auth.Returns? && !uploadSaved ==> r.IsHttpError(HTTP_400_BAD_REQUEST, "Failed to save file")
    ensures auth.Returns? && uploadSaved && sheet.Returns? && Readable(sheet.value) && commitError.Some? ==>
              r.IsHttpError(HTTP_400_BAD_REQUEST, ProcessingFailed(commitError.value))
    ensures r.Returns? ==> r.value.path == SheetPath(invitationName, fileId) && r.value.mediaType == XlsxType
    ensures r.Returns? && '/' !in invitationName && '/' !in fileId ==>
              r.value.filename == invitationName + "_" + fileId + ".xlsx"
    ensures r.Returns? ==> sheet.Returns? && |committed| == |sheet.value.rows|
  {
    if auth.Raises? {
      committed := [];
      r := Raises(auth.exc);
      return;
    }
    var batch;
    committed, batch := GenerateImages(uploadSaved, sheet, invitationName, fileId, ids, commitError, height, measure);
    if batch.Raises? {
      r := Raises(batch.exc);
      return;
    }
    var path := batch.value.sheetPath;
    if '/' !in invitationName && '/' !in fileId {
      var leaf := invitationName + "_" + fileId + ".xlsx";
      assert '/' !in leaf && |leaf| >= 5;
      NameOfPlainLeaf("src/excel", leaf);
      assert path == "src/excel" + "/" + leaf;
    }
    r := Returns(FileResponse(path, Name(path), XlsxType));
  }

  // ---------------------------------------------------------------------------
  // Login and authentication together

  /** A successful login changes no host's id, so unique ids stay unique. */
  lemma LoginKeepsIds(
    hosts: seq<Host>, email: string, password: string,
    verify: (string, string) -> bool, now: int, expireMinutes: int,
    encode: Claims -> string)
    requires UniqueIds(hosts)
    requires Accounts.Login(hosts, email, password, verify, now, expireMinutes, encode).Returns?
    ensures var hosts' := Accounts.Login(hosts, email, password, verify, now, expireMinutes, encode).value.0;
            && |hosts'| == |hosts|
            && (forall j :: 0 <= j < |hosts| ==> hosts'[j].id == hosts[j].id)
            && UniqueIds(hosts')
  {
    var hosts' := Accounts.Login(hosts, email, password, verify, now, expireMinutes, encode).value.0;
    assert forall j :: 0 <= j < |hosts'| ==> hosts'[j].id == hosts[j].id;
  }

  /** A token whose stripped form decodes to claims naming an active host with
      a unique id authenticates that host. */
  lemma TokenForHostAuthenticates(token: string, jwtDecode: string -> JwtDecoded, hosts: seq<Host>, k: nat, claims: Claims)
    requires UniqueIds(hosts)
    requires k < |hosts| && hosts[k].isActive && hosts[k].id != ""
    requires claims.sub == Some(hosts[k].id)
    requires jwtDecode(StripBearer(token)) == Decoded(claims)
    ensures Repository.GetCurrentHost(token, jwtDecode, hosts) == Returns(hosts[k])
  {
    FirstMatchUniqueId(hosts, k);
  }

  /** A token issued by a successful login, sent back with or without the
      "Bearer " prefix, authenticates the host that logged in, provided the
      JWT library decodes what it encoded and ids are unique and non-empty. */
  lemma LoginTokenAuthenticates(
    hosts: seq<Host>, email: string, password: string,
    verify: (string, string) -> bool, now: int, expireMinutes: int,
    encode: Claims -> string, jwtDecode: string -> JwtDecoded)
    requires UniqueIds(hosts)
    requires forall i :: 0 <= i < |hosts| ==> hosts[i].id != ""
    requires forall c :: jwtDecode(encode(c)) == Decoded(c)
    requires Accounts.Login(hosts, email, password, verify, now, expireMinutes, encode).Returns?
    ensures var out := Accounts.Login(hosts, email, password, verify, now, expireMinutes, encode).value;
            var k := FirstMatch(hosts, ByEmail(email)).value;
            && Repository.GetCurrentHost(BearerPrefix + out.1.accessToken, jwtDecode, out.0) == Returns(out.0[k])
            && (!StartsWith(out.1.accessToken, BearerPrefix) ==>
                  Repository.GetCurrentHost(out.1.accessToken, jwtDecode, out.0) == Returns(out.0[k]))
  {
    var r := Accounts.Login(hosts, email, password, verify, now, expireMinutes, encode);
    var out := r.value;
    var k := FirstMatch(hosts, ByEmail(email)).value;
    var hosts' := out.0;
    var token := out.1.accessToken;
    var claims := Claims(now + expireMinutes, Some(hosts[k].id));
    assert token == encode(claims);
    assert jwtDecode(token) == Decoded(claims);
    LoginKeepsIds(hosts, email, password, verify, now, expireMinutes, encode);
    assert hosts'[k].id == hosts[k].id && hosts'[k].isActive;
    assert hosts'[k].id != "";
    StripBearerOnce(token);
    assert jwtDecode(StripBearer(BearerPrefix + token)) == Decoded(claims);
    TokenForHostAuthenticates(BearerPrefix + token, jwtDecode, hosts', k, claims);
    if !StartsWith(token, BearerPrefix) {
      TokenForHostAuthenticates(token, jwtDecode, hosts', k, claims);
    }
  }
}

=== FILE: strings.dfy ===
/** The handful of Python `str` operations the service relies on, written over
    `seq<char>`: slicing `s[:n]`, `startswith`, `split` on one character,
    `join`, `rstrip` of one character, `replace`, and `str()` of an integer. */
module Strings {

  /** `s[:n]` for a non-negative `n`: the first `n` characters, or all of them. */
  function Take(s: string, n: nat): (r: string)
    ensures r <= s
    ensures |r| <= n
    ensures |s| <= n ==> r == s
    ensures n < |s| ==> |r| == n
  {
    if |s| <= n then s else s[..n]
  }

  /** `s.startswith(prefix)` */
  predicate StartsWith(s: string, prefix: string) {
    prefix <= s
  }

  /** `s.split(sep)` for a one-character separator: the maximal pieces between
      separators, including empty ones, in order. */
  function Split(s: string, sep: char): (parts: seq<string>)
    ensures |parts| >= 1
    ensures forall i :: 0 <= i < |parts| ==> sep !in parts[i]
    decreases |s|
  {
    if |s| == 0 then [""]
    else
      var rest := Split(s[1..], sep);
      if s[0] == sep then [""] + rest
      else [[s[0]] + rest[0]] + rest[1..]
  }

  /** `sep.join(parts)` for a one-character separator. */
  function Join(parts: seq<string>, sep: char): string
  {
    if |parts| == 0 then ""
    else if |parts| == 1 then parts[0]
    else parts[0] + [sep] + Join(parts[1..], sep)
  }

  /** `"".join(parts)` */
  function Concat(parts: seq<string>): string
  {
    if |parts| == 0 then "" else parts[0] + Concat(parts[1..])
  }

  /** `s` with every occurrence of `c` deleted. */
  function RemoveChar(s: string, c: char): (r: string)
    ensures c !in r
    ensures |r| <= |s|
    ensures c !in s ==> r == s
  {
    if |s| == 0 then ""
    else (if s[0] == c then "" else [s[0]]) + RemoveChar(s[1..], c)
  }

  /** `s.rstrip(c)`: the longest prefix of `s` that does not end in `c`, where
      everything cut off is `c`. */
  function RStrip(s: string, c: char): (r: string)
    ensures r <= s
    ensures |r| == 0 || r[|r| - 1] != c
    ensures forall i :: |r| <= i < |s| ==> s[i] == c
    decreases |s|
  {
    if |s| > 0 && s[|s| - 1] == c then RStrip(s[..|s| - 1], c) else s
  }

  /** `pat` occurs somewhere in `s`. */
  predicate Contains(s: string, pat: string) {
    exists i :: 0 <= i <= |s| && StartsWith(s[i..], pat)
  }

  /** `s.replace(pat, rep)` for a non-empty `pat`: occurrences are found left to
      right and do not overlap; the replacement text is not scanned again. */
  function ReplaceAll(s: string, pat: string, rep: string): (r: string)
    requires |pat| > 0
    ensures rep == "" ==> |r| <= |s|
    decreases |s|
  {
    if |s| == 0 then ""
    else if StartsWith(s, pat) then
      rep + ReplaceAll(s[|pat|..], pat, rep)
    else
      [s[0]] + ReplaceAll(s[1..], pat, rep)
  }

  /** Splitting and joining again on the same separator gives the text back. */
  lemma {:induction false} JoinSplit(s: string, sep: char)
    ensures Join(Split(s, sep), sep) == s
    decreases |s|
  {
    if |s| > 0 {
      var rest := Split(s[1..], sep);
      JoinSplit(s[1..], sep);
      if s[0] == sep {
        assert Split(s, sep) == [""] + rest;
        assert ([""] + rest)[1..] == rest;
      } else {
        JoinExtendFirst([s[0]], rest, sep);
        assert s == [s[0]] + s[1..];
      }
    }
  }

  /** Prepending text to the first piece prepends it to the joined text. */
  lemma JoinExtendFirst(x: string, parts: seq<string>, sep: char)
    requires |parts| >= 1
    ensures Join([x + parts[0]] + parts[1..], sep) == x + Join(parts, sep)
  {
    var ps := [x + parts[0]] + parts[1..];
    assert ps[1..] == parts[1..];
  }

  /** Joining one more piece puts a separator and the piece at the end. */
  lemma {:induction false} JoinAppend(parts: seq<string>, x: string, sep: char)
    requires |parts| >= 1
    ensures Join(parts + [x], sep) == Join(parts, sep) + [sep] + x
    decreases |parts|
  {
    if |parts| == 1 {
      assert (parts + [x])[1..] == [x];
    } else {
      assert (parts + [x])[1..] == parts[1..] + [x];
      JoinAppend(parts[1..], x, sep);
    }
  }

  /** Joining separator-free pieces and splitting again gives the pieces back. */
  lemma {:induction false} SplitJoin(parts: seq<string>, sep: char)
    requires |parts| >= 1
    requires forall i :: 0 <= i < |parts| ==> sep !in parts[i]
    ensures Split(Join(parts, sep), sep) == parts
    decreases |parts|
  {
    if |parts| == 1 {
      SplitWithoutSeparator(parts[0], sep);
    } else {
      SplitJoin(parts[1..], sep);
      SplitAppend(parts[0], Join(parts[1..], sep), sep);
      SplitWithoutSeparator(parts[0], sep);
      assert parts == [parts[0]] + parts[1..];
    }
  }

  /** A text without the separator is a single piece. */
  lemma {:induction false} SplitWithoutSeparator(s: string, sep: char)
    requires sep !in s
    ensures Split(s, sep) == [s]
    decreases |s|
  {
    if |s| > 0 {
      SplitWithoutSeparator(s[1..], sep);
      assert s == [s[0]] + s[1..];
    }
  }

  /** A prefix of `b` is a prefix of anything `b` is extended to. */
  lemma PrefixOfLonger(a: string, b: string, c: string)
    requires a <= b
    ensures a <= b + c
  {
    assert forall k :: 0 <= k < |a| ==> (b + c)[k] == b[k];
  }

  /** One step of `Split`: the first character either starts a new piece or
      joins the first piece of the rest. */
  lemma SplitCons(c: char, t: string, sep: char)
    ensures var rest := Split(t, sep);
            Split([c] + t, sep) == if c == sep then [""] + rest else [[c] + rest[0]] + rest[1..]
  {
    assert ([c] + t)[0] == c;
    assert ([c] + t)[1..] == t;
  }

  /** The inductive step of `SplitAppend`: putting one character in front of
      `t` keeps the split of `t + sep + b` the splits of the two sides. */
  lemma SplitAppendStep(c: char, t: string, b: string, sep: char)
    requires Split(t + [sep] + b, sep) == Split(t, sep) + Split(b, sep)
    ensures Split([c] + t + [sep] + b, sep) == Split([c] + t, sep) + Split(b, sep)
  {
    var u := t + [sep] + b;
    assert [c] + t + [sep] + b == [c] + u;
    SplitCons(c, u, sep);
    SplitCons(c, t, sep);
    if c == sep {
      ConsSeparator(Split(t, sep), Split(b, sep));
    } else {
      ConsOther([c], Split(t, sep), Split(b, sep));
    }
  }

  /** Sequence regrouping for the separator case of `SplitAppendStep`. */
  lemma ConsSeparator(rt: seq<string>, rb: seq<string>)
    ensures [""] + (rt + rb) == ([""] + rt) + rb
  {
  }

  /** Sequence regrouping for the other case of `SplitAppendStep`. */
  lemma ConsOther(head: string, rt: seq<string>, rb: seq<string>)
    requires |rt| >= 1
    ensures [head + (rt + rb)[0]] + (rt + rb)[1..] == ([head + rt[0]] + rt[1..]) + rb
  {
    assert (rt + rb)[0] == rt[0];
    assert (rt + rb)[1..] == rt[1..] + rb;
  }

  /** Splitting `a + sep + b` splits `a` and `b` separately. */
  lemma {:induction false} SplitAppend(a: string, b: string, sep: char)
    ensures Split(a + [sep] + b, sep) == Split(a, sep) + Split(b, sep)
    decreases |a|
  {
    if |a| == 0 {
      assert a + [sep] + b == [sep] + b;
      SplitCons(sep, b, sep);
    } else {
      var c, t := a[0], a[1..];
      assert a == [c] + t;
      SplitAppend(t, b, sep);
      SplitAppendStep(c, t, b, sep);
    }
  }

  /** Concatenating the pieces of a split drops exactly the separators. */
  lemma {:induction false} ConcatSplit(s: string, sep: char)
    ensures Concat(Split(s, sep)) == RemoveChar(s, sep)
    decreases |s|
  {
    if |s| > 0 {
      ConcatSplit(s[1..], sep);
      var rest := Split(s[1..], sep);
      if s[0] == sep {
        assert ([""] + rest)[1..] == rest;
      } else {
        var ps := [[s[0]] + rest[0]] + rest[1..];
        assert ps[1..] == rest[1..];
        assert Concat(rest) == rest[0] + Concat(rest[1..]);
      }
    }
  }

  /** Replacement distributes over a split point that no occurrence straddles
      or starts before. */
  lemma {:induction false} ReplaceAllAppend(a: string, b: string, pat: string, rep: string)
    requires |pat| > 0
    requires forall i :: 0 <= i < |a| ==> !StartsWith(a[i..] + b, pat)
    ensures ReplaceAll(a + b, pat, rep) == a + ReplaceAll(b, pat, rep)
    decreases |a|
  {
    if |a| > 0 {
      var s := a + b;
      assert a[0..] == a;
      assert !StartsWith(s, pat);
      assert s[1..] == a[1..] + b;
      forall i | 0 <= i < |a[1..]|
        ensures !StartsWith(a[1..][i..] + b, pat)
      {
        assert a[1..][i..] == a[i + 1..];
      }
      ReplaceAllAppend(a[1..], b, pat, rep);
      assert ReplaceAll(s, pat, rep) == [s[0]] + ReplaceAll(s[1..], pat, rep);
      assert a == [a[0]] + a[1..];
    } else {
      assert a + b == b;
    }
  }

  /** Without an occurrence of `pat`, replacing changes nothing. */
  lemma ReplaceAllAbsent(s: string, pat: string, rep: string)
    requires |pat| > 0
    requires !Contains(s, pat)
    ensures ReplaceAll(s, pat, rep) == s
  {
    forall i | 0 <= i < |s|
      ensures !StartsWith(s[i..] + "", pat)
    {
      assert s[i..] + "" == s[i..];
    }
    ReplaceAllAppend(s, "", pat, rep);
    assert s + "" == s;
  }

  /** A leading occurrence is replaced and scanning resumes right after it. */
  lemma ReplaceAllLeading(b: string, pat: string, rep: string)
    requires |pat| > 0
    ensures ReplaceAll(pat + b, pat, rep) == rep + ReplaceAll(b, pat, rep)
  {
    assert (pat + b)[|pat|..] == b;
  }

  // ---------------------------------------------------------------------------
  // str() of an integer and its inverse

  predicate IsDigit(ch: char) {
    '0' <= ch <= '9'
  }

  predicate AllDigits(s: string) {
    forall i :: 0 <= i < |s| ==> IsDigit(s[i])
  }

  function DigitChar(d: nat): (ch: char)
    requires d < 10
    ensures IsDigit(ch)
  {
    (('0' as int) + d) as char
  }

  function DigitValue(ch: char): (d: nat)
    requires IsDigit(ch)
    ensures d < 10
  {
    (ch as int) - ('0' as int)
  }

  /** Decimal digits of `n` without leading zeros. */
  function NatDigits(n: nat): (r: string)
    ensures |r| >= 1
    ensures AllDigits(r)
    ensures r[0] == '0' ==> n == 0
    decreases n
  {
    if n < 10 then [DigitChar(n)] else NatDigits(n / 10) + [DigitChar(n % 10)]
  }

  /** `str(n)` for a Python `int`. */
  function DecimalString(n: int): (r: string)
    ensures |r| >= 1
    ensures forall i :: 0 <= i < |r| ==> IsDigit(r[i]) || r[i] == '-'
  {
    if n < 0 then "-" + NatDigits(-n) else NatDigits(n)
  }

  /** Value of a string of decimal digits. */
  function ParseNat(s: string): nat
    requires AllDigits(s)
    decreases |s|
  {
    if |s| == 0 then 0 else ParseNat(s[..|s| - 1]) * 10 + DigitValue(s[|s| - 1])
  }

  /** `s` is an optional minus sign followed by at least one digit. */
  predicate IsDecimal(s: string) {
    || (|s| > 1 && s[0] == '-' && AllDigits(s[1..]))
    || (|s| > 0 && AllDigits(s))
  }

  /** `int(s)` for a string accepted by `IsDecimal`. */
  function ParseDecimal(s: string): int
    requires IsDecimal(s)
  {
    if |s| > 1 && s[0] == '-' && AllDigits(s[1..]) then 0 - ParseNat(s[1..])
    else ParseNat(s)
  }

  lemma {:induction false} ParseNatDigits(n: nat)
    ensures ParseNat(NatDigits(n)) == n
    decreases n
  {
    if n >= 10 {
      var d := NatDigits(n / 10);
      var r := d + [DigitChar(n % 10)];
      assert r[..|r| - 1] == d;
      ParseNatDigits(n / 10);
    }
  }

  /** `int(str(n)) == n` */
  lemma DecimalRoundTrip(n: int)
    ensures IsDecimal(DecimalString(n))
    ensures ParseDecimal(DecimalString(n)) == n
  {
    if n < 0 {
      ParseNatDigits(-n);
      assert DecimalString(n)[1..] == NatDigits(-n);
    } else {
      ParseNatDigits(n);
    }
  }

  /** The text of a number never holds a character other than digits and '-'. */
  lemma DecimalStringLacks(n: int, c: char)
    requires !IsDigit(c) && c != '-'
    ensures c !in DecimalString(n)
  {
  }
}

=== FILE: tokens.dfy ===
/** Access tokens: the claims put into a new token (`create_access_token`)
    and the Bearer-prefix stripping and error translation around decoding
    (`decode_access_token`).  Signing and verifying are the JWT library's
    business and arrive as function parameters. */
module Tokens {

  import opened Outcomes
  import opened Strings

  /** The scheme prefix a client may leave in front of the token. */
  const BearerPrefix: string := "Bearer "

  /** The claims the service writes: expiry (in minutes of an abstract clock)
      and subject, the host id as a string. */
  datatype Claims = Claims(exp: int, sub: Option<string>)

  /** The token type reported by login. */
  const TokenType: string := "bearer"

  /** The claims of a token for `subject` issued at `now`.  `expiresDelta`
      is an optional duration in minutes; as in Python, a zero duration is
      falsy and falls back to the configured default. */
  function AccessClaims(subject: string, expiresDelta: Option<int>, now: int, defaultMinutes: int): (c: Claims)
    ensures c.sub == Some(subject)
    ensures expiresDelta.Some? && expiresDelta.value != 0 ==> c.exp == now + expiresDelta.value
    ensures expiresDelta.None? || expiresDelta == Some(0) ==> c.exp == now + defaultMinutes
  {
    var minutes := if expiresDelta.Some? && expiresDelta.value != 0 then expiresDelta.value else defaultMinutes;
    Claims(now + minutes, Some(subject))
  }

  /** `create_access_token`: the claims above, signed by `encode`. */
  function CreateAccessToken(
    subject: string, expiresDelta: Option<int>, now: int, defaultMinutes: int,
    encode: Claims -> string): string
  {
    encode(AccessClaims(subject, expiresDelta, now, defaultMinutes))
  }

  /** Removes one leading "Bearer " if present; anything else is left alone. */
  function StripBearer(token: string): (r: string)
    ensures StartsWith(token, BearerPrefix) ==> token == BearerPrefix + r
    ensures !StartsWith(token, BearerPrefix) ==> r == token
    ensures |r| <= |token|
  {
    if StartsWith(token, BearerPrefix) then token[|BearerPrefix|..] else token
  }

  /** Exactly one prefix is removed: stripping undoes prepending it once. */
  lemma StripBearerOnce(t: string)
    ensures StripBearer(BearerPrefix + t) == t
  {
  }

  /** What the JWT library's `decode` does with a token: it returns the claims
      or raises one of its own exceptions. */
  datatype JwtDecoded = Decoded(claims: Claims) | SignatureExpired | InvalidJwt(reason: string)

  /** The exception the library raises for a failed decode. */
  function LibraryException(d: JwtDecoded): (e: Exception)
    requires !d.Decoded?
    ensures IsJWTError(e)
  {
    if d.SignatureExpired? then ExpiredSignatureError else JWTError(d.reason)
  }

  /** `decode_access_token`: strip the prefix, let the library decode, and turn
      the library's JWT failures into `ValueError`s (expiry first, since
      `ExpiredSignatureError` is itself a `JWTError`). */
  function DecodeAccessToken(token: string, jwtDecode: string -> JwtDecoded): (r: Outcome<Claims>)
    ensures r.Raises? ==> r.exc.ValueError? && !IsJWTError(r.exc)
    ensures r.Returns? <==> jwtDecode(StripBearer(token)).Decoded?
    ensures r.Returns? ==> r.value == jwtDecode(StripBearer(token)).claims
    ensures jwtDecode(StripBearer(token)).SignatureExpired? ==> r == Raises(ValueError("Token has expired"))
    ensures jwtDecode(StripBearer(token)).InvalidJwt? ==> r == Raises(ValueError("Invalid token"))
  {
    var d := jwtDecode(StripBearer(token));
    if d.Decoded? then Returns(d.claims)
    else
      var e := LibraryException(d);
      if e.ExpiredSignatureError? then Raises(ValueError("Token has expired"))
      else if IsJWTError(e) then Raises(ValueError("Invalid token"))
      else Raises(e)
  }
}
